=== FILE: README.md ===
# Enrollment wizard — a Dafny model

This project models the core of a web enrollment system for an undergraduate
course. Students enroll for a semester in four steps:

1. **Identification.** The student types their SIGAA matrícula. It is looked up in the roster of active students. Failing that, it is accepted as a freshman's number: the current year followed by digits.
2. **ENEM validation.** The student gives their ENEM validation token. They can type it, or it is found in the text of the uploaded score report. The token is sent to the score service. It is called at most five times, so a failed call is retried at most four times. For a student on the roster, the name the service returns must match the roster name once both are normalised (NFKD, ASCII only, lower case, whitespace removed).
3. **Choice and confirmation.** The student picks a section and an option: attend the course, or seek exemption. Exemption is offered only to a predicted score at or above the cutoff. The enrollment is upserted under its (token, semester) key. A repeat enrollment changes only its choice fields.
4. **Receipt.** The final data is laid out as a twelve-row receipt. A restart button empties the session.

A gate in front of all steps reads the configuration document. Outside the configured enrollment window it shows a status page.

Modules:

- `Values`: Python/BSON values, truthiness, `dict.get` and string helpers.
- `Crud`: the MongoDB queries of `core/crud.py`, over collections modelled as sequences of documents.
- `Enem`: token search, the retry loop and score parsing, from `utils/enem.py`.
- `Names`: the name comparison of `app.py`.
- `Receipt`: the receipt rows of `utils/generate_pdf.py`.
- `Wizard`: the session record, the four step handlers, the window gate and the dispatch of `main`, from `app.py`.

Each step handler is a pure function of three things: the session, the enrollment collection and that run's user inputs. It returns the new session, the collection and the message the page shows.

What the code takes from outside enters as parameters: the clock and the current year; the score service (one `Attempt` per call) and whether a body that is not JSON counts as a `requests` error; the Unicode decomposition table; `float()` on text (`parse`); `str()` on values that are not text (`show`); and the three prediction coefficients from the application secrets. A Python exception that escapes a handler becomes the `Fault` notice. The session changes made before the exception are kept, as Streamlit keeps them.

Where the code and its documentation disagree, the model follows the code. There is one exception: the choice list is the corrected one described under "## Findings", and every step after it builds on that list. The differences that follow the code are:

- Only the languages score has its decimal comma replaced before `float()`. An essay score of `"650,4"` makes the prediction fail, and the prediction stays `"N/A"` (`Enem.WritingScoreKeepsItsComma`).
- An exception while parsing scores keeps the fields read before it. It does not reset them all to `"N/A"` (`Enem.FailedScanKeepsWritingScore`).
- `is_update` is set when a previous enrollment is found and is never cleared within a session. `Wizard.ValidateEnem` and `Wizard.ValidateEnemRecordsPriorEnrollment` state this as `isUpdate == old isUpdate || found`.

## Model

| member | source | states |
|---|---|---|
| Crud.FindStudent | core/crud.py:7-29 | No result exactly when no unwound roster member carries the matrícula. Otherwise the result is the `$project` of the first matching (course, member) pair and has a `Matricula` field |
| Crud.StudentFromFirstMatchingCourse | core/crud.py:13-29 | The aggregation answers from the first course, in collection order, that has a matching member, and uses that course's first matching member |
| Crud.UnwindEmits | core/crud.py:14 | Documents the definition of `Crud.Members`: `$unwind` emits each element of an array, a value that is not an array as it is, and nothing for a missing or null field |
| Crud.UnwoundPairsCoursesWithMembers | core/crud.py:13-14 | The unwound stream has one entry per member. Each entry pairs a course of the collection with one of that course's members |
| Crud.Project | core/crud.py:16-24 | The projection has only `Nome`, `Matricula`, `Curso` and `Centro`. Each is present exactly when its source path exists, and then holds that value |
| Crud.FindEnrollment | core/crud.py:32-40 | Finds a document exactly when some document matches both token and semester (MongoDB equality: a missing field matches null, an array matches an element). The one found is the first such document |
| Crud.GetConfiguracoes | core/crud.py:43-48 | Returns `{}` exactly when there is no configuration document or the first one is empty; otherwise returns the first document |
| Crud.GetTurmas | core/crud.py:51-57 | Succeeds exactly when every active section of the semester has a `name`, and then lists those names in collection order. Otherwise raises `KeyError('name')` |
| Crud.ChoiceFields | core/crud.py:71-75 | The `$set` document holds exactly the section, the choice and the update stamp, with the submitted values |
| Crud.InsertFields | core/crud.py:76-79 | The `$setOnInsert` document holds every input field except the three choice fields, plus the creation stamp; it never overlaps the choice fields |
| Crud.SaveEnrollment | core/crud.py:60-86 | Raises `KeyError` exactly when token, semester, section or choice is missing. Otherwise the collection grows by at most one document, and every document not under the key is untouched |
| Crud.SaveInsertsWhenAbsent | core/crud.py:67-85 | With no document under the key, exactly one is appended. It holds every input field, the update stamp and the creation stamp, and the earlier documents are unchanged |
| Crud.SaveUpdatesWhenPresent | core/crud.py:67-85 | With a document under the key, only the first such document changes, and only in section, choice and update stamp. The collection keeps its length |
| Crud.SetAndSetOnInsertDisjoint | core/crud.py:71-84 | The `$set` and `$setOnInsert` field sets of one save never overlap, so the upsert has no conflicting paths |
| Crud.SaveTwice | core/crud.py:60-86 | Two saves under one key leave one document. It keeps the first save's insert-only fields and creation stamp and holds the second save's choices and update stamp |
| Crud.SaveThenFind | core/crud.py:32-40 | After a save, the lookup under the saved token and semester finds a document carrying the saved section, choice and update stamp |
| Enem.FindToken | utils/enem.py:20-23 | No result exactly when `[a-zA-Z0-9=/]+==` matches nowhere. A result is the leftmost-longest match: at least three class characters, ending in `==` |
| Enem.FindTokenIsLeftmostLongest | utils/enem.py:20-22 | Any leftmost-longest span of the pattern is the token returned (the search is determined by that span) |
| Enem.TokenAfterLabel | utils/enem.py:20-22 | A well-formed token printed after a caption holding no `=` and ending outside the character class is extracted whole |
| Enem.NoPaddingNoToken | utils/enem.py:20-23 | Text without `==` yields no token |
| Enem.ExtractHashFromPdf | utils/enem.py:14-25 | A document that cannot be read yields no token. Otherwise the token is the search result on the concatenated page texts |
| Enem.FetchEnemScores | utils/enem.py:43-63 | Makes one to five calls. Every call before the last failed with a `requests` error, and the loop stops before the fifth call only at a call that did not. Gives up only after five failed calls, returning `None`. Otherwise returns the body of that first successful response, or raises. Sleeps once per failed call |
| Enem.ParseRelevantScores | utils/enem.py:66-106 | Always returns the three score keys. The prediction is `"N/A"` or equals base + c_L·languages + c_W·essay, with `"N/A"` operands read as 0. Unreadable data leaves all three at `"N/A"`. Once the objective tests are scanned without raising, the essay score is kept and the prediction is computed exactly when both operands can be read. A scan that raises keeps only the essay score. A scan that finds no languages entry leaves languages at `"N/A"` |
| Enem.ScanLanguages | utils/enem.py:81-84 | The scan stops at the first entry whose area mentions "Linguagens", and every entry before it is a dict whose area can be searched. It finds nothing exactly when every entry is testable and none matches. Otherwise it raises |
| Enem.ScanReachesEntry | utils/enem.py:81-84 | When every entry before a "Linguagens" entry is a dict whose area can be searched and does not mention it, the scan reaches that entry and finds a languages score |
| Enem.LanguagesFromFirstMatchingEntry | utils/enem.py:81-84 | The languages score is the `nota` of the first objective test whose area mentions "Linguagens"; the essay score is `redacao.nota` |
| Enem.MissingScoresCountAsZero | utils/enem.py:86-101 | Absent scores are reported as `"N/A"`, and the prediction is then the base coefficient alone |
| Enem.FailedScanKeepsWritingScore | utils/enem.py:76-106 | When the objective tests cannot be iterated, or the scan over them raises on an entry, the essay score already read is kept and the other two stay `"N/A"` |
| Enem.WritingScoreKeepsItsComma | utils/enem.py:86-101 | For a `float()` that refuses commas: an essay score written with a decimal comma is kept as read and no prediction is made |
| Enem.LanguagesCommaIsDecimalPoint | utils/enem.py:86-101 | A languages score enters the prediction as the number its text parses to once its commas are replaced by points, whatever form of essay score `float()` reads |
| Names.NamesMatchCharacterwise | app.py:31-38 | Two names match exactly when their characters, one at a time, contribute the same text |
| Names.NormalizedIsLowerAscii | app.py:32-36 | A normalised name holds only lower-case ASCII without whitespace |
| Names.NormalizedIsIdempotent | app.py:32-36 | Normalising a normalised name changes nothing, so a name matches its own normal form |
| Names.NamesMatchIsEquivalence | app.py:31-38 | The name comparison is reflexive, symmetric and transitive |
| Names.NormalizedOfConcat | app.py:32-36 | Normalising a concatenation is concatenating the normalised parts |
| Names.IgnoresWhitespace | app.py:36 | Inserting a run of ASCII whitespace anywhere in a name does not change the comparison |
| Names.IgnoresAsciiCase | app.py:36 | Upper-casing the ASCII letters of a name does not change the comparison |
| Names.DropsCharactersWithoutAsciiPart | app.py:33-35 | A character whose decomposition has no ASCII character does not affect the comparison |
| Names.IgnoresCombiningMarks | app.py:33-35 | A character that decomposes to an ASCII base plus non-ASCII marks compares as its base |
| Names.WordsMatchUpToCase | app.py:31-38 | Two-word names whose words agree up to case match, however the words are separated |
| Names.AccentCaseAndSpacingExample | app.py:31-38 | "José Silva" matches "JOSE   silva" |
| Receipt.InfoRows | utils/generate_pdf.py:38-68 | Fails exactly when `notas_relevantes` is present but not a dict. Otherwise gives twelve rows with fixed captions in order. The status reads "Atualizada" exactly when `is_update` is truthy. Top-level fields appear as stored or as `"N/A"`. Scores appear as text, `"N/A"` when absent |
| Receipt.EmptyDataReceipt | utils/generate_pdf.py:38-68 | The receipt of empty data is a new enrollment with every value `"N/A"` |
| Receipt.ChoiceRows | utils/generate_pdf.py:43-44 | Data recording a section and an option shows them in the "Turma Escolhida" and "Opção Escolhida" rows |
| Wizard.Initialize | app.py:41-49 | A session that exists is kept. A new one starts at identification with empty matrícula and message, no data and `is_update` false |
| Wizard.Identify | app.py:77-105 | Advances to ENEM validation exactly for a submitted, non-empty matrícula that is on the roster or a freshman's number. A listed student gets the roster record and `is_calouro` false. An unlisted freshman gets only the matrícula, `is_calouro` true and the freshman message. Otherwise only the typed matrícula is recorded. In each case the rest of the session is unchanged. The store is untouched |
| Values.FirstWord | app.py:112 | `split()[0]`: the first maximal run of non-whitespace after the leading whitespace, or nothing when the text is blank |
| Values.FirstWordOfLaidOutText | app.py:112 | A word after whitespace and before whitespace or the end is the first word |
| Wizard.GreetingName | app.py:112 | The greeting is the first word of the name, or `Aluno(a)` without a name. It fails exactly when the page cannot greet: a name that is not text, or a blank one |
| Wizard.TokenChoice | app.py:133-152 | A typed token (stripped, non-empty) wins. Without one, the token is the one extracted from the uploaded report, or none without an upload. A chosen token is never empty |
| Wizard.ValidateEnem | app.py:108-191 | The matrícula, `is_calouro` and the final data are never changed. The store is untouched. Without a score document only the message is cleared. A name mismatch keeps the student data and the held score document. With a score document, a previous enrollment under its token and the active semester is held, announced and recorded in `is_update`. Without one, the held enrollment is kept and the message is cleared. Advancing needs a score document and, for a roster student, matching names. A freshman's data takes the ENEM name and an unconfirmed course. A consistent session stays consistent |
| Wizard.ValidateEnemWaits | app.py:153-169 | Without a press, without a token, or when the score service gives up, only the message is cleared, and the page asks for a token or reports the failure |
| Wizard.ValidateEnemAdvances | app.py:177-188 | With a score document, a freshman, or a roster student whose names match, reaches the confirmation step holding that document |
| Wizard.ValidateEnemNameGate | app.py:182-186 | A roster student whose names do not match stays on the page and is told so. The roster data and the held score document are kept, so the next press is compared against the same roster name |
| Wizard.ValidateEnemRecordsPriorEnrollment | app.py:170-176 | With a score document, `is_update` becomes true exactly when an enrollment exists under its token and the active semester, or stays true. The enrollment found is held and announced. Without one, the held enrollment is kept and the message is cleared |
| Wizard.FreshmanData | app.py:179-181 | A freshman's data takes the ENEM name and the unconfirmed course; every other field stays |
| Wizard.RelevantScores | app.py:203 | No scores exactly without ENEM data |
| Wizard.RelevantScoresAreWellFormed | app.py:203 | The scores the form shows are well formed, and the prediction compared with the cutoff is a number or `"N/A"` |
| Wizard.SectionOptions | app.py:215-219 | The section list is never empty: the active sections, or the "Turmas não disponíveis" placeholder |
| Wizard.DefaultIndex | app.py:220-231 | The preselected index is in range. It is the first occurrence of the previous value when listed, else 0 |
| Wizard.Previous | app.py:220-243 | The previous enrollment's field, `None` when it lacks one, or the list's first option without a previous enrollment |
| Wizard.PreselectsPreviousChoices | app.py:220-250 | Left alone, the form submits the previous section and choice when they are still offered, and otherwise the first option |
| Wizard.PyLess | app.py:234 | Numbers compare by value, with booleans as 0 and 1. A string against a number raises `TypeError` |
| Wizard.ChoiceOptionsAsWritten | app.py:232-235 | Attendance is always first. The comparison raises exactly where Python's `<` rejects the operand types, notably a `"N/A"` prediction against a numeric cutoff |
| Wizard.UnparsedPredictionRaises | app.py:233-234 | A prediction of `"N/A"` against the default cutoff 6.75 raises `TypeError` |
| Wizard.ChoiceOptions | app.py:232-238 | Offers exemption to a numeric prediction exactly when it is at or above a numeric cutoff. Offers attendance only, below the cutoff or when the prediction is `"N/A"` |
| Wizard.FormChoices | app.py:215-250 | The form can be drawn exactly when the sections can be read and the choice list computed. The section and choice submitted are members of the lists offered. A pick within a list is the value submitted |
| Wizard.Submission | app.py:262-269 | The submitted enrollment carries the student data overlaid with section, token (`hash`), scores, choice and semester, so the save cannot fail on a missing key |
| Wizard.Save | app.py:259-281 | A complete enrollment is upserted and the session moves to the receipt holding it, with its scores. An incomplete one is reported as a save error with nothing changed |
| Wizard.Confirm | app.py:194-281 | The message is cleared. Unless the step reaches the receipt, the session keeps its data and the store is untouched. Without a submit the step stays. A submitted form that can be drawn, with student and score data, is saved and reaches the receipt. A consistent confirmation session stays consistent |
| Wizard.FinalData | app.py:271-275 | The final data is the submission plus `is_update` and the update stamp; every other field stays |
| Wizard.ConfirmSavesSubmission | app.py:259-276 | A confirmation that reaches the receipt was submitted with student and score data and a drawable form. The store is the result of saving the submission built from the form's section and choice. The final data is that submission plus `is_update` and the stamp |
| Wizard.ConfirmedEnrollmentIsFound | app.py:259-277 | After a completed confirmation, the enrollment lookup under the final data's token and semester finds the saved section and choice |
| Wizard.ConfirmedReceipt | app.py:271-275 | After a completed confirmation, the receipt can be drawn. It shows the status chosen by `is_update` and the chosen section and option |
| Wizard.Finish | app.py:284-304 | Faults exactly when there is no final data or its receipt rows cannot be built; for a consistent receipt session the rows can always be built. Restart returns the initial session. The store is untouched |
| Wizard.WindowGate | app.py:324-358 | Stops on an empty configuration exactly when it is empty. Lets the steps run exactly when both dates are datetimes (naive ones read as UTC) and start ≤ now ≤ end |
| Wizard.Dispatch | app.py:360-370 | Each step moves only to itself or its successor, and the receipt step to itself or back to identification. Consistency is preserved. Only a confirmation that reaches the receipt changes the store |
| Wizard.Serve | app.py:307-370 | Outside the window nothing changes. The steps run exactly when the gate is open. A consistent session stays consistent. The store changes only on an open run at the confirmation step |

## Left out

- Page rendering, spinners, `st.rerun`, `time.sleep` and the download button are left out. Only their effect on the session and the store is modelled.
- `core/database.py` and `utils/style.py` are not part of this model. The connection, the database handle and the CSS and logo loading are outside the wizard's logic.
- The `db is None` stop in `main` is left out: a failed connection is outside the model.
- The store is a sequence of documents with no failure mode. Database errors during a save, which the code reports through its `try`, are not modelled.
- Concurrent sessions writing to the same collection are not modelled. Each run sees one store.
- `_id` fields are not modelled.
- PDF reading and text extraction are not modelled. An uploaded report arrives as its page texts, or as a failure to read it.
- Enem.FetchEnemScores: HTTP, headers, the 15-second timeout and TLS are not modelled. Each call is an `Attempt`. Whether a non-JSON body counts as a `requests` error depends on the library version, so it is a flag.
- Enem.ParseRelevantScores: `round(…, 2)` and floating point are not modelled. The prediction is exact over the reals, and `float()` on text is the `parse` parameter.
- Names: the NFKD table is a per-character parameter. `str.lower()` is modelled on ASCII letters only, which is all that is left after the ASCII filter.
- Wizard.Identify: `str.isdigit()` is modelled as ASCII digits. Python also accepts other Unicode digits.
- Wizard.PyLess: orders only numbers, booleans and strings. Other operand types of `<` count as a `TypeError`.
- Crud.FieldEquals: dotted paths into arrays of sub-documents are not modelled.
- Receipt.InfoRows: `str()` of non-text values is the `show` parameter. The drawing itself is not modelled. Neither is the footer's `datetime.fromisoformat`, which comes after the rows are laid out. Nor is the logo fallback, whose `st.warning` has no `st` in scope.
- Wizard.Finish: only building the receipt rows is modelled, not drawing them. `drawString` receives the stored values as they are (utils/generate_pdf.py:76). A non-text value, such as the `None` `token_enem` of a score document without `hash` (app.py:265), therefore raises inside `generate_pdf` (app.py:290). The footer's `datetime.fromisoformat` and the logo fallback (utils/generate_pdf.py:26-27) can raise there too. When that happens the whole receipt handler raises on every run, before the download button (app.py:291) and the restart button (app.py:299) are drawn, so the student cannot restart within the session. The restart transition of `Wizard.Finish`, and the receipt step's return to identification in `Wizard.Dispatch` and `Wizard.Serve`, hold only for final data that `drawString` accepts.
- Wizard.FormChoices: uses the corrected `Wizard.ChoiceOptions`. With a `"N/A"` prediction and a numeric cutoff, the code raises `TypeError` while drawing the form, so no submission is possible. The model offers attendance only. `Wizard.Confirm`, `Wizard.Dispatch` and `Wizard.Serve` therefore describe the corrected wizard. The comparison as written is `Wizard.ChoiceOptionsAsWritten`.
- Wizard.DefaultIndex: the previous value is looked up with `Value` equality, where `Bool(true)` and `Num(1.0)` differ. Python's `in` and `list.index` (app.py:228-229, 247-248) use `==`, where `True == 1`. Section names and choices are text, so this matters only for stored non-text values.
- Wizard.Select: a pick outside the option list is read as the preselected option. A select box cannot return one.
- Widget keys that Streamlit keeps in the session for its own inputs are not modelled.

## Findings

| source | as written | input that shows it | evidently intended | confidence | as-written member | corrected member |
|---|---|---|---|---|---|---|
| app.py:233-235 | The predicted score is compared with the cutoff by `<`. When the prediction could not be computed it is the string `"N/A"`, and `"N/A" < 6.75` raises `TypeError` while the confirmation form is drawn | Score document without a parsable score combination (e.g. essay `"650,4"`) and no `cutoffScore` in the configuration: prediction `"N/A"`, cutoff 6.75 | A student without a prediction is offered attendance only | not executed | Wizard.UnparsedPredictionRaises | Wizard.ChoiceOptions |

=== FILE: crud.dfy ===
/**
 The MongoDB access layer of the enrollment system (`core/crud.py`).

 Each collection is a sequence of documents in natural order. `find_one`,
 `update_one` and an aggregation all see the documents in that order, so
 "the first document the filter matches" is well defined. The `_id` field
 MongoDB adds on insert is not modelled.
 */
module Crud {
  import opened Values

  const TokenKey := "token_enem"
  const SemesterKey := "semester"
  const SectionKey := "turma_escolhida"
  const ChoiceKey := "escolha"
  const UpdatedKey := "data_ultima_atualizacao"
  const CreatedKey := "data_inscricao"

  /** The fields a save writes with `$set`: the student's choices and the update stamp. */
  const ChoiceKeys: set<string> := {SectionKey, ChoiceKey, UpdatedKey}

  /** The exception `d[key]` raises on a missing key. */
  datatype KeyError = KeyError(key: string)

  /** Index of the first element satisfying `p`, or `|xs|` when there is none. */
  function FirstIndex<T>(xs: seq<T>, p: T -> bool): (i: nat)
    ensures i <= |xs|
    ensures forall k :: 0 <= k < i ==> !p(xs[k])
    ensures i < |xs| ==> p(xs[i])
  {
    if xs == [] then 0
    else if p(xs[0]) then 0
    else 1 + FirstIndex(xs[1..], p)
  }

  lemma {:induction false} FirstIndexOfConcat<T>(xs: seq<T>, ys: seq<T>, p: T -> bool)
    ensures FirstIndex(xs + ys, p)
            == if FirstIndex(xs, p) < |xs| then FirstIndex(xs, p) else |xs| + FirstIndex(ys, p)
  {
    if xs != [] {
      assert (xs + ys)[1..] == xs[1..] + ys;
      FirstIndexOfConcat(xs[1..], ys, p);
    } else {
      assert xs + ys == ys;
    }
  }

  /** MongoDB equality match `{key: v}` on one top-level field: equal values,
      an array holding `v`, or (for `v == None`) a missing field. */
  predicate FieldEquals(d: Doc, key: string, v: Value)
  {
    if key in d then d[key] == v || (d[key].Arr? && v in d[key].items)
    else v == Null
  }

  // ---------------------------------------------------------------------
  // Enrollments, keyed by (token_enem, semester)
  // ---------------------------------------------------------------------

  /** The filter `{'token_enem': token, 'semester': semester}`. */
  predicate HasKey(d: Doc, token: Value, semester: Value)
  {
    FieldEquals(d, TokenKey, token) && FieldEquals(d, SemesterKey, semester)
  }

  function KeyFilter(token: Value, semester: Value): Doc -> bool
  {
    d => HasKey(d, token, semester)
  }

  /** `find_enrollment_by_token_and_semester` */
  function FindEnrollment(store: seq<Doc>, token: Value, semester: Value): (r: Option<Doc>)
    ensures r.Some? <==> exists k :: 0 <= k < |store| && HasKey(store[k], token, semester)
    ensures r.Some? ==> exists k :: && 0 <= k < |store| && store[k] == r.value
                                    && HasKey(store[k], token, semester)
                                    && forall j :: 0 <= j < k ==> !HasKey(store[j], token, semester)
  {
    var i := FirstIndex(store, KeyFilter(token, semester));
    if i < |store| then Some(store[i]) else None
  }

  /** The `$setOnInsert` part of a save: every input field except the choice
      fields, plus the creation stamp. */
  function InsertFields(data: Doc, insertedAt: string): (f: Doc)
    ensures f.Keys !! ChoiceKeys
    ensures f.Keys == (data.Keys - ChoiceKeys) + {CreatedKey}
    ensures forall k :: k in data && k !in ChoiceKeys && k != CreatedKey ==> f[k] == data[k]
    ensures f[CreatedKey] == Str(insertedAt)
  {
    (map k | k in data && k !in ChoiceKeys :: data[k])[CreatedKey := Str(insertedAt)]
  }

  /** The `$set` part of a save. */
  function ChoiceFields(data: Doc, updatedAt: string): (f: Doc)
    requires SectionKey in data && ChoiceKey in data
    ensures f.Keys == ChoiceKeys
    ensures f[SectionKey] == data[SectionKey] && f[ChoiceKey] == data[ChoiceKey]
    ensures f[UpdatedKey] == Str(updatedAt)
  {
    map[SectionKey := data[SectionKey], ChoiceKey := data[ChoiceKey], UpdatedKey := Str(updatedAt)]
  }

  /** The fields `save_enrollment` reads with `enrollment_data[...]`, in reading order. */
  function MissingInput(data: Doc): Option<string>
  {
    if TokenKey !in data then Some(TokenKey)
    else if SemesterKey !in data then Some(SemesterKey)
    else if SectionKey !in data then Some(SectionKey)
    else if ChoiceKey !in data then Some(ChoiceKey)
    else None
  }

  predicate Complete(data: Doc)
  {
    TokenKey in data && SemesterKey in data && SectionKey in data && ChoiceKey in data
  }

  /** `save_enrollment`: `update_one(filter, {'$set': …, '$setOnInsert': …}, upsert=True)`.
      `updatedAt` and `insertedAt` are the two `datetime.now()` readings, in call order. */
  function SaveEnrollment(store: seq<Doc>, data: Doc, updatedAt: string, insertedAt: string)
    : (r: Result<seq<Doc>, KeyError>)
    ensures r.Failure? <==> !Complete(data)
    ensures r.Success? ==> |store| <= |r.value| <= |store| + 1
    ensures r.Success? ==> forall k :: 0 <= k < |store| && !HasKey(store[k], data[TokenKey], data[SemesterKey])
                                       ==> r.value[k] == store[k]
  {
    match MissingInput(data)
    case Some(key) => Failure(KeyError(key))
    case None =>
      var i := FirstIndex(store, KeyFilter(data[TokenKey], data[SemesterKey]));
      var changes := ChoiceFields(data, updatedAt);
      if i < |store| then Success(store[i := store[i] + changes])
      else Success(store + [InsertFields(data, insertedAt) + changes])
  }

  /** What a freshly inserted enrollment holds: every input field, with the
      update stamp and a new creation stamp. */
  ghost predicate Inserted(d: Doc, data: Doc, updatedAt: string, insertedAt: string)
  {
    && d.Keys == data.Keys + {CreatedKey, UpdatedKey}
    && (forall k :: k in data && k != CreatedKey && k != UpdatedKey ==> d[k] == data[k])
    && d[CreatedKey] == Str(insertedAt)
    && d[UpdatedKey] == Str(updatedAt)
  }

  /** What an existing enrollment becomes: only the choice fields change. */
  ghost predicate Patched(d: Doc, prior: Doc, data: Doc, updatedAt: string)
    requires Complete(data)
  {
    && d.Keys == prior.Keys + ChoiceKeys
    && (forall k :: k in prior && k !in ChoiceKeys ==> d[k] == prior[k])
    && d[SectionKey] == data[SectionKey]
    && d[ChoiceKey] == data[ChoiceKey]
    && d[UpdatedKey] == Str(updatedAt)
  }

  /** No enrollment under the key: exactly one document is appended. */
  lemma SaveInsertsWhenAbsent(store: seq<Doc>, data: Doc, updatedAt: string, insertedAt: string)
    requires Complete(data)
    requires forall k :: 0 <= k < |store| ==> !HasKey(store[k], data[TokenKey], data[SemesterKey])
    ensures var r := SaveEnrollment(store, data, updatedAt, insertedAt);
            && r.Success?
            && |r.value| == |store| + 1
            && r.value[..|store|] == store
            && Inserted(r.value[|store|], data, updatedAt, insertedAt)
  {
    var d := InsertFields(data, insertedAt) + ChoiceFields(data, updatedAt);
    var r := SaveEnrollment(store, data, updatedAt, insertedAt);
    assert r.value == store + [d];
    assert r.value[..|store|] == store;
  }

  /** An enrollment under the key: the first such document changes in its
      choice fields only; every other document and field is kept. */
  lemma SaveUpdatesWhenPresent(store: seq<Doc>, data: Doc, updatedAt: string, insertedAt: string, i: nat)
    requires Complete(data)
    requires i < |store| && HasKey(store[i], data[TokenKey], data[SemesterKey])
    requires forall k :: 0 <= k < i ==> !HasKey(store[k], data[TokenKey], data[SemesterKey])
    ensures var r := SaveEnrollment(store, data, updatedAt, insertedAt);
            && r.Success?
            && |r.value| == |store|
            && (forall k :: 0 <= k < |store| && k != i ==> r.value[k] == store[k])
            && Patched(r.value[i], store[i], data, updatedAt)
  {
    var p := KeyFilter(data[TokenKey], data[SemesterKey]);
    assert p(store[i]);
  }

  /** The two field sets of one save never overlap, so MongoDB never reports
      an update conflict between `$set` and `$setOnInsert`. */
  lemma SetAndSetOnInsertDisjoint(data: Doc, updatedAt: string, insertedAt: string)
    requires SectionKey in data && ChoiceKey in data
    ensures ChoiceFields(data, updatedAt).Keys !! InsertFields(data, insertedAt).Keys
  {
  }

  /** Two saves under one key leave one document: the first call's
      insert-only fields and the second call's choice fields. */
  lemma SaveTwice(store: seq<Doc>, first: Doc, second: Doc, u1: string, c1: string, u2: string, c2: string)
    requires Complete(first) && Complete(second)
    requires second[TokenKey] == first[TokenKey] && second[SemesterKey] == first[SemesterKey]
    requires forall k :: 0 <= k < |store| ==> !HasKey(store[k], first[TokenKey], first[SemesterKey])
    ensures SaveEnrollment(store, first, u1, c1).Success?
    ensures var once := SaveEnrollment(store, first, u1, c1).value;
            var twice := SaveEnrollment(once, second, u2, c2);
            && twice.Success?
            && |twice.value| == |store| + 1
            && twice.value[..|store|] == store
            && var d := twice.value[|store|];
               && d.Keys == first.Keys + {CreatedKey, UpdatedKey}
               && (forall k :: k in first && k !in ChoiceKeys && k != CreatedKey ==> d[k] == first[k])
               && d[CreatedKey] == Str(c1)
               && d[SectionKey] == second[SectionKey]
               && d[ChoiceKey] == second[ChoiceKey]
               && d[UpdatedKey] == Str(u2)
  {
    SaveInsertsWhenAbsent(store, first, u1, c1);
    var once := SaveEnrollment(store, first, u1, c1).value;
    var n := |store|;
    assert once[n][TokenKey] == first[TokenKey] && once[n][SemesterKey] == first[SemesterKey];
    assert HasKey(once[n], second[TokenKey], second[SemesterKey]);
    forall k | 0 <= k < n
      ensures !HasKey(once[k], second[TokenKey], second[SemesterKey])
    {
      assert once[k] == once[..n][k] == store[k];
    }
    SaveUpdatesWhenPresent(once, second, u2, c2, n);
    var twice := SaveEnrollment(once, second, u2, c2).value;
    assert twice[..n] == once[..n];
  }

  /** After a save, the enrollment lookup finds a document under the saved
      key that carries the saved choices. */
  lemma SaveThenFind(store: seq<Doc>, data: Doc, updatedAt: string, insertedAt: string)
    requires Complete(data)
    ensures var r := SaveEnrollment(store, data, updatedAt, insertedAt);
            && r.Success?
            && var found := FindEnrollment(r.value, data[TokenKey], data[SemesterKey]);
               && found.Some?
               && ChoiceKeys <= found.value.Keys
               && found.value[SectionKey] == data[SectionKey]
               && found.value[ChoiceKey] == data[ChoiceKey]
               && found.value[UpdatedKey] == Str(updatedAt)
  {
    var t, s := data[TokenKey], data[SemesterKey];
    var p := KeyFilter(t, s);
    var i := FirstIndex(store, p);
    var r := SaveEnrollment(store, data, updatedAt, insertedAt).value;
    if i < |store| {
      SaveUpdatesWhenPresent(store, data, updatedAt, insertedAt, i);
      assert (TokenKey in r[i]) == (TokenKey in store[i]);
      assert (SemesterKey in r[i]) == (SemesterKey in store[i]);
      assert HasKey(r[i], t, s);
      assert forall k :: 0 <= k < i ==> r[k] == store[k];
    } else {
      SaveInsertsWhenAbsent(store, data, updatedAt, insertedAt);
      var n := |store|;
      assert HasKey(r[n], t, s);
      assert forall k :: 0 <= k < n ==> r[k] == r[..n][k];
    }
  }

  // ---------------------------------------------------------------------
  // Sections and configuration
  // ---------------------------------------------------------------------

  const SectionNameKey := "name"
  const ActiveKey := "is_active"

  /** The filter `{'semester': semester, 'is_active': True}`. */
  predicate Offered(d: Doc, semester: Value)
  {
    FieldEquals(d, SemesterKey, semester) && FieldEquals(d, ActiveKey, Bool(true))
  }

  /** The section documents the filter selects, in collection order. */
  function OfferedIn(sections: seq<Doc>, semester: Value): (r: seq<Doc>)
    ensures forall d :: d in r <==> d in sections && Offered(d, semester)
  {
    if sections == [] then []
    else if Offered(sections[0], semester) then [sections[0]] + OfferedIn(sections[1..], semester)
    else OfferedIn(sections[1..], semester)
  }

  /** `get_turmas`: the names of the offered sections; `doc['name']` raises
      on an offered section without a name. */
  function GetTurmas(sections: seq<Doc>, semester: Value): (r: Result<seq<Value>, KeyError>)
    ensures r.Success? <==> forall d :: d in OfferedIn(sections, semester) ==> SectionNameKey in d
    ensures r.Success? ==> && |r.value| == |OfferedIn(sections, semester)|
                           && forall k :: 0 <= k < |r.value| ==>
                                SectionNameKey in OfferedIn(sections, semester)[k]
                                && r.value[k] == OfferedIn(sections, semester)[k][SectionNameKey]
    ensures r.Failure? ==> r.error == KeyError(SectionNameKey)
  {
    if sections == [] then Success([])
    else
      var d := sections[0];
      var rest := GetTurmas(sections[1..], semester);
      if !Offered(d, semester) then rest
      else if SectionNameKey !in d then Failure(KeyError(SectionNameKey))
      else match rest
        case Success(names) => Success([d[SectionNameKey]] + names)
        case Failure(e) => Failure(e)
  }

  /** `get_configuracoes`: the single configuration document, or `{}`. */
  function GetConfiguracoes(configs: seq<Doc>): (r: Doc)
    ensures r == map[] <==> configs == [] || configs[0] == map[]
    ensures r != map[] ==> r == configs[0]
  {
    if configs != [] && Truthy(Obj(configs[0])) then configs[0] else map[]
  }

  // ---------------------------------------------------------------------
  // Roster lookup: $unwind, $match, $project over the course collection
  // ---------------------------------------------------------------------

  const RosterKey := "alunos_ativos"
  const MemberIdKey := "Matrícula"

  /** The values `$unwind: '$alunos_ativos'` emits for one course: one per
      array element, the value itself when it is not an array, none when the
      field is missing, null or an empty array. */
  function Members(course: Doc): seq<Value>
  {
    if RosterKey !in course then []
    else match course[RosterKey]
      case Null => []
      case Arr(xs) => xs
      case v => [v]
  }

  /** `$unwind` emits each element of an array, a value that is not an
      array as it is, and nothing for a missing or null field. */
  lemma UnwindEmits(course: Doc)
    ensures RosterKey !in course || course[RosterKey] == Null ==> Members(course) == []
    ensures RosterKey in course && course[RosterKey].Arr? ==> Members(course) == course[RosterKey].items
    ensures RosterKey in course && course[RosterKey] != Null && !course[RosterKey].Arr?
            ==> Members(course) == [course[RosterKey]]
  {
  }

  /** `{'alunos_ativos.Matrícula': matricula}` on one unwound member. */
  predicate Enrolled(member: Value, matricula: string)
  {
    member.Obj? && FieldEquals(member.fields, MemberIdKey, Str(matricula))
  }

  function Pairs(course: Doc, members: seq<Value>): (r: seq<(Doc, Value)>)
    ensures |r| == |members|
    ensures forall k :: 0 <= k < |r| ==> r[k] == (course, members[k])
  {
    if members == [] then [] else [(course, members[0])] + Pairs(course, members[1..])
  }

  /** The aggregation stream after `$unwind`: course by course, member by member. */
  function Unwound(roster: seq<Doc>): seq<(Doc, Value)>
  {
    if roster == [] then [] else Pairs(roster[0], Members(roster[0])) + Unwound(roster[1..])
  }

  /** The unwound stream pairs each course with its members, and nothing else:
      its length is the total number of members, and every entry is a course
      of the collection together with one of that course's members. */
  lemma {:induction false} UnwoundPairsCoursesWithMembers(roster: seq<Doc>)
    ensures |Unwound(roster)| == TotalMembers(roster)
    ensures forall j :: 0 <= j < |Unwound(roster)| ==>
              Unwound(roster)[j].0 in roster && Unwound(roster)[j].1 in Members(Unwound(roster)[j].0)
  {
    if roster != [] {
      UnwoundPairsCoursesWithMembers(roster[1..]);
      var head, tail := Pairs(roster[0], Members(roster[0])), Unwound(roster[1..]);
      forall j | 0 <= j < |Unwound(roster)|
        ensures Unwound(roster)[j].0 in roster && Unwound(roster)[j].1 in Members(Unwound(roster)[j].0)
      {
        if j < |head| {
          assert Unwound(roster)[j] == head[j];
        } else {
          assert Unwound(roster)[j] == tail[j - |head|];
          assert tail[j - |head|].0 in roster[1..];
        }
      }
    }
  }

  function TotalMembers(roster: seq<Doc>): nat
  {
    if roster == [] then 0 else |Members(roster[0])| + TotalMembers(roster[1..])
  }

  function Copy(out: string, src: Doc, key: string): Doc
  {
    if key in src then map[out := src[key]] else map[]
  }

  /** The `$project` stage; a path to a missing field yields no output field. */
  function Project(course: Doc, member: Doc): (r: Doc)
    ensures r.Keys <= {"Nome", "Matricula", "Curso", "Centro"}
    ensures ("Nome" in r <==> "Aluno" in member) && ("Aluno" in member ==> r["Nome"] == member["Aluno"])
    ensures ("Matricula" in r <==> MemberIdKey in member)
            && (MemberIdKey in member ==> r["Matricula"] == member[MemberIdKey])
    ensures ("Curso" in r <==> "Nome" in course) && ("Nome" in course ==> r["Curso"] == course["Nome"])
    ensures ("Centro" in r <==> "Centro" in course) && ("Centro" in course ==> r["Centro"] == course["Centro"])
  {
    Copy("Nome", member, "Aluno") + Copy("Matricula", member, MemberIdKey)
    + Copy("Curso", course, "Nome") + Copy("Centro", course, "Centro")
  }

  function EnrolledAs(matricula: string): ((Doc, Value)) -> bool
  {
    (p: (Doc, Value)) => Enrolled(p.1, matricula)
  }

  /** `find_student_by_matricula`: the first aggregation result, projected. */
  function FindStudent(roster: seq<Doc>, matricula: string): (r: Option<Doc>)
    ensures r.None? ==> forall j :: 0 <= j < |Unwound(roster)| ==> !Enrolled(Unwound(roster)[j].1, matricula)
    ensures (forall j :: 0 <= j < |Unwound(roster)| ==> !Enrolled(Unwound(roster)[j].1, matricula)) ==> r.None?
    ensures var stream := Unwound(roster);
            r.Some? ==> exists j :: && 0 <= j < |stream|
                                    && Enrolled(stream[j].1, matricula)
                                    && (forall i :: 0 <= i < j ==> !Enrolled(stream[i].1, matricula))
                                    && r.value == Project(stream[j].0, stream[j].1.fields)
    ensures r.Some? ==> "Matricula" in r.value
  {
    FirstEnrolled(Unwound(roster), matricula)
  }

  /** The first projected match in an aggregation stream. */
  function FirstEnrolled(stream: seq<(Doc, Value)>, matricula: string): (r: Option<Doc>)
    ensures r.None? <==> forall j :: 0 <= j < |stream| ==> !Enrolled(stream[j].1, matricula)
    ensures r.Some? ==> exists j :: && 0 <= j < |stream|
                                    && Enrolled(stream[j].1, matricula)
                                    && (forall i :: 0 <= i < j ==> !Enrolled(stream[i].1, matricula))
                                    && r.value == Project(stream[j].0, stream[j].1.fields)
  {
    var j := FirstIndex(stream, EnrolledAs(matricula));
    if j < |stream| then
      assert EnrolledAs(matricula)(stream[j]);
      Some(Project(stream[j].0, stream[j].1.fields))
    else
      assert forall i :: 0 <= i < |stream| ==> !EnrolledAs(matricula)(stream[i]);
      None
  }

  function MemberFilter(matricula: string): Value -> bool
  {
    v => Enrolled(v, matricula)
  }

  lemma {:induction false} FirstInPairs(course: Doc, ms: seq<Value>, matricula: string)
    ensures FirstIndex(Pairs(course, ms), EnrolledAs(matricula)) == FirstIndex(ms, MemberFilter(matricula))
  {
    if ms != [] {
      assert Pairs(course, ms)[1..] == Pairs(course, ms[1..]);
      FirstInPairs(course, ms[1..], matricula);
    }
  }

  /** The lookup walks courses in order and, within a course, members in
      order: the answer comes from the first course with a matching member,
      and is that course's first matching member. */
  lemma StudentFromFirstMatchingCourse(roster: seq<Doc>, matricula: string, c: nat)
    requires c < |roster|
    requires exists k :: 0 <= k < |Members(roster[c])| && Enrolled(Members(roster[c])[k], matricula)
    requires forall c', k :: 0 <= c' < c && 0 <= k < |Members(roster[c'])| ==> !Enrolled(Members(roster[c'])[k], matricula)
    ensures var ms := Members(roster[c]);
            var k := FirstIndex(ms, MemberFilter(matricula));
            k < |ms| && FindStudent(roster, matricula) == Some(Project(roster[c], ms[k].fields))
  {
    FirstMatchInStream(roster, matricula, c);
  }

  /** The first match in the unwound stream is the first matching member of
      the first course that has one. */
  lemma {:induction false} FirstMatchInStream(roster: seq<Doc>, matricula: string, c: nat)
    requires c < |roster|
    requires exists k :: 0 <= k < |Members(roster[c])| && Enrolled(Members(roster[c])[k], matricula)
    requires forall c', k :: 0 <= c' < c && 0 <= k < |Members(roster[c'])| ==> !Enrolled(Members(roster[c'])[k], matricula)
    ensures var ms := Members(roster[c]);
            var k := FirstIndex(ms, MemberFilter(matricula));
            var j := FirstIndex(Unwound(roster), EnrolledAs(matricula));
            k < |ms| && j < |Unwound(roster)| && Unwound(roster)[j] == (roster[c], ms[k])
  {
    var p := EnrolledAs(matricula);
    var ms := Members(roster[0]);
    var head := Pairs(roster[0], ms);
    var tail := Unwound(roster[1..]);
    assert Unwound(roster) == head + tail;
    FirstIndexOfConcat(head, tail, p);
    FirstInPairs(roster[0], ms, matricula);
    var k := FirstIndex(ms, MemberFilter(matricula));
    if c == 0 {
      var w :| 0 <= w < |ms| && Enrolled(ms[w], matricula);
      assert MemberFilter(matricula)(ms[w]);
      assert (head + tail)[k] == head[k];
    } else {
      assert k == |ms|;
      FirstMatchInStream(roster[1..], matricula, c - 1);
      var j := FirstIndex(tail, p);
      assert (head + tail)[|head| + j] == tail[j];
    }
  }
}

=== FILE: enem.dfy ===
/**
 Exam-score retrieval (`utils/enem.py`): finding the validation token in the
 text of the score report, the bounded retry loop around the score service,
 and picking out the essay and languages scores the prediction uses.

 PDF text extraction, HTTP, `float()` parsing and `round` are outside the
 model: the report arrives as page texts, each service call as an `Attempt`,
 and string-to-number parsing as the `parse` parameter.
 */
module Enem {
  import opened Values

  // ---------------------------------------------------------------------
  // Token extraction: re.search(r'([a-zA-Z0-9=/]+==)', text)
  // ---------------------------------------------------------------------

  /** The character class `[a-zA-Z0-9=/]`. */
  predicate TokenChar(c: char)
  {
    ('a' <= c <= 'z') || ('A' <= c <= 'Z') || ('0' <= c <= '9') || c == '=' || c == '/'
  }

  /** `text[e-2..e] == "=="`. */
  predicate PaddedAt(text: string, e: int)
  {
    2 <= e <= |text| && text[e - 2] == '=' && text[e - 1] == '='
  }

  /** The pattern matches exactly `text[i..e]`: one or more class characters
      followed by `==`. */
  predicate IsMatch(text: string, i: int, e: int)
  {
    && 0 <= i && i + 3 <= e <= |text|
    && (forall k :: i <= k < e ==> TokenChar(text[k]))
    && PaddedAt(text, e)
  }

  /** The span `re.search` reports: the leftmost start with a match and,
      from there, the longest match (the `+` is greedy). */
  ghost predicate LeftmostLongest(text: string, i: int, e: int)
  {
    && IsMatch(text, i, e)
    && (forall i', e' :: 0 <= i' < i ==> !IsMatch(text, i', e'))
    && (forall e' :: e < e' ==> !IsMatch(text, i, e'))
  }

  /** End of the run of class characters that starts at `i`. */
  function RunEnd(text: string, i: nat): (j: nat)
    requires i <= |text|
    ensures i <= j <= |text|
    ensures forall k :: i <= k < j ==> TokenChar(text[k])
    ensures j < |text| ==> !TokenChar(text[j])
    decreases |text| - i
  {
    if i < |text| && TokenChar(text[i]) then RunEnd(text, i + 1) else i
  }

  /** The greatest `e <= limit` with `e >= i + 3` and `==` just before it. */
  function LastPadding(text: string, i: nat, limit: nat): (e: Option<nat>)
    requires limit <= |text|
    ensures e.Some? ==> i + 3 <= e.value <= limit && PaddedAt(text, e.value)
    ensures e.Some? ==> forall e' :: e.value < e' <= limit ==> !PaddedAt(text, e')
    ensures e.None? ==> forall e' :: i + 3 <= e' <= limit ==> !PaddedAt(text, e')
    decreases limit
  {
    if limit < i + 3 then None
    else if PaddedAt(text, limit) then Some(limit)
    else LastPadding(text, i, limit - 1)
  }

  /** The longest match starting at `i`, if any. */
  function LongestAt(text: string, i: nat): (e: Option<nat>)
    requires i <= |text|
    ensures e.Some? ==> IsMatch(text, i, e.value) && forall e' :: e.value < e' ==> !IsMatch(text, i, e')
    ensures e.None? ==> forall e' :: !IsMatch(text, i, e')
  {
    var j := RunEnd(text, i);
    var r := LastPadding(text, i, j);
    assert forall e' :: j < e' ==> !IsMatch(text, i, e');
    r
  }

  /** The regex search, trying each start from `i` on. */
  function SearchFrom(text: string, i: nat): (r: Option<(nat, nat)>)
    requires i <= |text|
    ensures r.Some? ==> i <= r.value.0 && IsMatch(text, r.value.0, r.value.1)
    ensures r.Some? ==> forall e' :: r.value.1 < e' ==> !IsMatch(text, r.value.0, e')
    ensures r.Some? ==> forall i', e' :: i <= i' < r.value.0 ==> !IsMatch(text, i', e')
    ensures r.None? ==> forall i', e' :: i <= i' ==> !IsMatch(text, i', e')
    decreases |text| - i
  {
    if i == |text| then None
    else match LongestAt(text, i)
      case Some(e) => Some((i, e))
      case None => SearchFrom(text, i + 1)
  }

  /** `match.group(1)` of the token search, or `None` without a match. */
  function FindToken(text: string): (r: Option<string>)
    ensures r.None? <==> forall i, e :: !IsMatch(text, i, e)
    ensures r.Some? ==> exists i, e :: LeftmostLongest(text, i, e) && r.value == text[i..e]
    ensures r.Some? ==> && |r.value| >= 3
                        && r.value[|r.value| - 2..] == "=="
                        && forall k :: 0 <= k < |r.value| ==> TokenChar(r.value[k])
  {
    match SearchFrom(text, 0)
    case None => None
    case Some((i, e)) => Some(text[i..e])
  }

  /** The page texts concatenated in page order. */
  function Join(pages: seq<string>): string
  {
    if pages == [] then "" else pages[0] + Join(pages[1..])
  }

  /** `extract_hash_from_pdf`: `pages` is `None` when reading the document
      raised, which the function reports as `None` as well. */
  function ExtractHashFromPdf(pages: Option<seq<string>>): (r: Option<string>)
    ensures pages.None? ==> r.None?
    ensures pages.Some? && r.None? ==> forall i, e :: !IsMatch(Join(pages.value), i, e)
    ensures pages.Some? && (forall i, e :: !IsMatch(Join(pages.value), i, e)) ==> r.None?
    ensures r.Some? ==> exists i, e :: LeftmostLongest(Join(pages.value), i, e) && r.value == Join(pages.value)[i..e]
  {
    match pages
    case None => None
    case Some(ps) => FindToken(Join(ps))
  }

  /** The search result is determined by its leftmost-longest span. */
  lemma FindTokenIsLeftmostLongest(text: string, i: int, e: int)
    requires LeftmostLongest(text, i, e)
    ensures FindToken(text) == Some(text[i..e])
  {
    var r := FindToken(text);
    var i2, e2 :| LeftmostLongest(text, i2, e2) && r.value == text[i2..e2];
    assert i2 == i && e2 == e;
  }

  /** A token printed after a caption that holds no `=` and ends in a
      character outside the class is found whole. */
  lemma TokenAfterLabel(caption: string, token: string)
    requires caption != [] && !TokenChar(caption[|caption| - 1])
    requires forall k :: 0 <= k < |caption| ==> caption[k] != '='
    requires |token| >= 3 && token[|token| - 2..] == "=="
    requires forall k :: 0 <= k < |token| ==> TokenChar(token[k])
    ensures FindToken(caption + token) == Some(token)
  {
    var text := caption + token;
    var n := |caption|;
    assert text[n..|text|] == token;
    assert forall k :: n <= k < |text| ==> text[k] == token[k - n];
    assert PaddedAt(text, |text|) by {
      assert text[|text| - 2] == token[|token| - 2..][0];
      assert text[|text| - 1] == token[|token| - 2..][1];
    }
    assert IsMatch(text, n, |text|);
    assert forall k :: 0 <= k < n ==> text[k] == caption[k];
    assert forall i', e' :: 0 <= i' < n ==> !IsMatch(text, i', e');
    assert LeftmostLongest(text, n, |text|);
    FindTokenIsLeftmostLongest(text, n, |text|);
  }

  /** The example from the score report: the key after "Chave: ". */
  lemma ReportKeyExample(caption: string, token: string)
    requires caption == "Chave: " && token == "zDdMdIblbpDr/DxLOPgr6w=="
    ensures FindToken(caption + token) == Some(token)
  {
    assert forall k :: 0 <= k < |token| ==> TokenChar(token[k]);
    TokenAfterLabel(caption, token);
  }

  /** Text with no `==` holds no token. */
  lemma NoPaddingNoToken(text: string)
    requires forall k :: 0 <= k < |text| - 1 ==> !(text[k] == '=' && text[k + 1] == '=')
    ensures FindToken(text).None?
  {
  }

  // ---------------------------------------------------------------------
  // Score service: bounded retries
  // ---------------------------------------------------------------------

  const MaxRetries := 5
  const RetryDelaySeconds := 1

  /** One `requests.post` call as the loop sees it: no response at all
      (timeout, connection error), or a status code and the body decoded as
      JSON (`None` when the body is not JSON). */
  datatype Attempt =
    | NoResponse
    | Response(status: int, body: Option<Value>)

  /** The attempt ends in a `requests` exception, which the loop swallows
      before sleeping and trying again. `raise_for_status` raises for 4xx and
      5xx codes. Whether a body that is not JSON raises a `requests`
      exception depends on the library version, hence the flag. */
  predicate Retried(a: Attempt, decodeErrorIsRequestError: bool)
  {
    match a
    case NoResponse => true
    case Response(status, body) => 400 <= status < 600 || (body.None? && decodeErrorIsRequestError)
  }

  /** What `fetch_enem_scores` does: returns the decoded body, returns
      `None` after the last retry, or lets a non-`requests` exception out. */
  datatype FetchResult = Fetched(body: Value) | GaveUp | Raised

  /** `fetch_enem_scores`: `outcome(k)` is the result of the `k`-th call.
      `calls` counts the calls made and `pauses` the one-second sleeps. */
  method FetchEnemScores(outcome: nat -> Attempt, decodeErrorIsRequestError: bool)
    returns (r: FetchResult, calls: nat, pauses: nat)
    ensures 1 <= calls <= MaxRetries
    // every call but the last failed in a way the loop retries, and the
    // loop stops early only at a call it does not retry
    ensures forall k :: 0 <= k < calls - 1 ==> Retried(outcome(k), decodeErrorIsRequestError)
    ensures calls < MaxRetries ==> !Retried(outcome(calls - 1), decodeErrorIsRequestError)
    ensures r.GaveUp? <==> calls == MaxRetries && Retried(outcome(calls - 1), decodeErrorIsRequestError)
    ensures r.Fetched? <==> var last := outcome(calls - 1);
                            last.Response? && !(400 <= last.status < 600) && last.body.Some?
    ensures r.Fetched? ==> Some(r.body) == outcome(calls - 1).body
    ensures (forall k :: 0 <= k < MaxRetries ==> Retried(outcome(k), decodeErrorIsRequestError))
            ==> r.GaveUp? && calls == MaxRetries
    ensures pauses == if Retried(outcome(calls - 1), decodeErrorIsRequestError) then calls else calls - 1
  {
    calls, pauses := 0, 0;
    while calls < MaxRetries
      invariant calls <= MaxRetries
      invariant pauses == calls
      invariant forall k :: 0 <= k < calls ==> Retried(outcome(k), decodeErrorIsRequestError)
    {
      var a := outcome(calls);
      calls := calls + 1;
      if !Retried(a, decodeErrorIsRequestError) {
        if a.body.Some? {
          return Fetched(a.body.value), calls, pauses;
        }
        return Raised, calls, pauses;
      }
      pauses := pauses + 1;
    }
    r := GaveUp;
  }

  // ---------------------------------------------------------------------
  // Relevant scores
  // ---------------------------------------------------------------------

  const WritingKey := "nota_redacao"
  const LanguagesKey := "nota_linguagens"
  const PredictedKey := "nota_predita"
  const LanguagesArea := "Linguagens"

  /** The prediction constants read from the application secrets. */
  datatype Coefficients = Coefficients(base: real, languages: real, writing: real)

  /** `enem_data.get('redacao', {}).get('nota', 'N/A')`; `None` when it raises. */
  function WritingScore(data: Value): (r: Option<Value>)
    ensures r.Some? ==> data.Obj?
  {
    if !data.Obj? then None
    else match Get(data.fields, "redacao", Obj(map[]))
      case Obj(essay) => Some(Get(essay, "nota", Str(NA)))
      case _ => None
  }

  /** The elements `for prova in v` hands out before something raises; `None`
      when iterating raises, or when the first element is a string, on which
      `prova.get` raises (a non-empty dict yields its keys). */
  function Iterated(v: Value): Option<seq<Value>>
  {
    match v
    case Arr(xs) => Some(xs)
    case Obj(m) => if m == map[] then Some([]) else None
    case Str(s) => if s == "" then Some([]) else None
    case _ => None
  }

  /** `needle in container`; `None` when Python raises `TypeError`. */
  function Mentions(container: Value, needle: string): Option<bool>
  {
    match container
    case Str(s) => Some(HasSubstring(s, needle))
    case Arr(xs) => Some(Str(needle) in xs)
    case Obj(m) => Some(needle in m)
    case _ => None
  }

  function Area(entry: Value): Value
    requires entry.Obj?
  {
    Get(entry.fields, "areaDeConhecimento", Str(""))
  }

  /** An entry the scan can test without raising. */
  predicate Testable(entry: Value)
  {
    entry.Obj? && Mentions(Area(entry), LanguagesArea).Some?
  }

  /** An entry whose area mentions the languages subject. */
  predicate IsLanguages(entry: Value)
  {
    entry.Obj? && Mentions(Area(entry), LanguagesArea) == Some(true)
  }

  /** The outcome of the scan: the entry it stopped at (its position and
      score), no entry, or an exception. */
  datatype Scan = Found(at: nat, score: Value) | Exhausted | ScanRaised

  /** The `for … break` loop over the objective tests. */
  function ScanLanguages(provas: seq<Value>): (r: Scan)
    ensures r.Found? ==> && r.at < |provas| && IsLanguages(provas[r.at])
                         && r.score == Get(provas[r.at].fields, "nota", Str(NA))
                         && forall j :: 0 <= j < r.at ==> Testable(provas[j]) && !IsLanguages(provas[j])
    ensures r.Exhausted? <==> forall j :: 0 <= j < |provas| ==> Testable(provas[j]) && !IsLanguages(provas[j])
  {
    if provas == [] then Exhausted
    else if !provas[0].Obj? then ScanRaised
    else match Mentions(Area(provas[0]), LanguagesArea)
      case None => ScanRaised
      case Some(true) => Found(0, Get(provas[0].fields, "nota", Str(NA)))
      case Some(false) =>
        match ScanLanguages(provas[1..])
        case Found(at, score) => Found(at + 1, score)
        case other => other
  }

  /** `float(v)` for a value; `None` when it raises. */
  function PyFloat(v: Value, parse: string -> Option<real>): Option<real>
  {
    match v
    case Num(n) => Some(n)
    case Bool(b) => Some(if b then 1.0 else 0.0)
    case Str(s) => parse(s)
    case _ => None
  }

  /** The languages operand: `'N/A'` counts as 0; a string has its decimal
      comma replaced before `float()`; anything else has no `.replace`. */
  function LanguagesOperand(v: Value, parse: string -> Option<real>): Option<real>
  {
    if v == Str(NA) then Some(0.0)
    else if v.Str? then parse(ReplaceChar(v.s, ',', '.'))
    else None
  }

  /** The writing operand: `'N/A'` counts as 0, anything else goes to `float()` as is. */
  function WritingOperand(v: Value, parse: string -> Option<real>): Option<real>
  {
    if v == Str(NA) then Some(0.0) else PyFloat(v, parse)
  }

  /** The prediction formula, before rounding. */
  function Predict(c: Coefficients, languages: real, writing: real): real
  {
    c.base + c.languages * languages + c.writing * writing
  }

  /** The linear prediction; `None` when an operand raises. */
  function Prediction(languages: Value, writing: Value, c: Coefficients, parse: string -> Option<real>): (p: Option<real>)
    ensures p.Some? <==> LanguagesOperand(languages, parse).Some? && WritingOperand(writing, parse).Some?
    ensures p.Some? ==> p.value == Predict(c, LanguagesOperand(languages, parse).value, WritingOperand(writing, parse).value)
  {
    match (LanguagesOperand(languages, parse), WritingOperand(writing, parse))
    case (Some(l), Some(w)) => Some(Predict(c, l, w))
    case _ => None
  }

  const Defaults: Doc := map[WritingKey := Str(NA), LanguagesKey := Str(NA), PredictedKey := Str(NA)]

  /** Exactly the three score fields, with the prediction either `'N/A'` or
      computed from the other two. */
  predicate WellFormed(r: Doc, c: Coefficients, parse: string -> Option<real>)
  {
    && r.Keys == {WritingKey, LanguagesKey, PredictedKey}
    && (r[PredictedKey] == Str(NA) || r[PredictedKey].Num?)
    && (r[PredictedKey].Num? ==>
          && LanguagesOperand(r[LanguagesKey], parse).Some?
          && WritingOperand(r[WritingKey], parse).Some?
          && r[PredictedKey].n == Predict(c, LanguagesOperand(r[LanguagesKey], parse).value,
                                          WritingOperand(r[WritingKey], parse).value))
  }

  /** The scores with the prediction filled in, unless computing it raises. */
  function WithPrediction(scores: Doc, c: Coefficients, parse: string -> Option<real>): (r: Doc)
    requires WritingKey in scores && LanguagesKey in scores && PredictedKey in scores
    ensures r.Keys == scores.Keys
    ensures r[WritingKey] == scores[WritingKey] && r[LanguagesKey] == scores[LanguagesKey]
    ensures var p := Prediction(scores[LanguagesKey], scores[WritingKey], c, parse);
            r[PredictedKey] == if p.Some? then Num(p.value) else scores[PredictedKey]
    ensures scores.Keys == Defaults.Keys && scores[PredictedKey] == Str(NA) ==> WellFormed(r, c, parse)
  {
    match Prediction(scores[LanguagesKey], scores[WritingKey], c, parse)
    case None => scores
    case Some(p) => scores[PredictedKey := Num(p)]
  }

  /** `parse_relevant_scores`. Every step sits inside one `try`, so an
      exception keeps the fields partial before it. */
  function ParseRelevantScores(data: Value, c: Coefficients, parse: string -> Option<real>): (r: Doc)
    ensures WellFormed(r, c, parse)
    ensures WritingScore(data).None? ==> r == Defaults
    // once the objective tests are scanned without raising, the prediction
    // is made exactly when both operands can be read
    ensures WritingScore(data).Some? && Iterated(Get(data.fields, "provaObjetiva", Arr([]))).Some?
            && !ScanLanguages(Iterated(Get(data.fields, "provaObjetiva", Arr([]))).value).ScanRaised? ==>
              && r[WritingKey] == WritingScore(data).value
              && var p := Prediction(r[LanguagesKey], r[WritingKey], c, parse);
                 r[PredictedKey] == if p.Some? then Num(p.value) else Str(NA)
    // a scan that raises keeps only the essay score; one that finds no
    // languages entry leaves languages at 'N/A'
    ensures WritingScore(data).Some? && Iterated(Get(data.fields, "provaObjetiva", Arr([]))).Some?
            && ScanLanguages(Iterated(Get(data.fields, "provaObjetiva", Arr([]))).value).ScanRaised? ==>
              r == Defaults[WritingKey := WritingScore(data).value]
    ensures WritingScore(data).Some? && Iterated(Get(data.fields, "provaObjetiva", Arr([]))).Some?
            && ScanLanguages(Iterated(Get(data.fields, "provaObjetiva", Arr([]))).value).Exhausted? ==>
              r[LanguagesKey] == Str(NA)
  {
    match WritingScore(data)
    case None => Defaults
    case Some(w) =>
      var partial := Defaults[WritingKey := w];
      match Iterated(Get(data.fields, "provaObjetiva", Arr([])))
      case None => partial
      case Some(provas) =>
        match ScanLanguages(provas)
        case ScanRaised => partial
        case Exhausted => WithPrediction(partial, c, parse)
        case Found(_, l) => WithPrediction(partial[LanguagesKey := l], c, parse)
  }

  /** The languages score is the `nota` of the first entry whose area mentions
      the languages subject; later entries are never looked at. */
  lemma LanguagesFromFirstMatchingEntry(data: Value, provas: seq<Value>, i: nat, c: Coefficients, parse: string -> Option<real>)
    requires WritingScore(data).Some?
    requires Get(data.fields, "provaObjetiva", Arr([])) == Arr(provas)
    requires i < |provas| && IsLanguages(provas[i])
    requires forall j :: 0 <= j < i ==> Testable(provas[j]) && !IsLanguages(provas[j])
    ensures ParseRelevantScores(data, c, parse)[LanguagesKey] == Get(provas[i].fields, "nota", Str(NA))
    ensures ParseRelevantScores(data, c, parse)[WritingKey] == WritingScore(data).value
  {
    ScanReachesEntry(provas, i);
    assert ScanLanguages(provas).at == i;
  }

  /** A scan that passes testable entries up to a languages entry finds something. */
  lemma {:induction false} ScanReachesEntry(provas: seq<Value>, i: nat)
    requires i < |provas| && IsLanguages(provas[i])
    requires forall j :: 0 <= j < i ==> Testable(provas[j]) && !IsLanguages(provas[j])
    ensures ScanLanguages(provas).Found?
  {
    if i > 0 {
      assert Testable(provas[0]) && !IsLanguages(provas[0]);
      ScanReachesEntry(provas[1..], i - 1);
    }
  }

  /** Absent scores are reported as `'N/A'` but count as 0 in the prediction. */
  lemma MissingScoresCountAsZero(data: Value, c: Coefficients, parse: string -> Option<real>)
    requires data.Obj? && "redacao" !in data.fields
    requires Get(data.fields, "provaObjetiva", Arr([])).Arr?
    requires forall entry :: entry in Get(data.fields, "provaObjetiva", Arr([])).items ==>
               Testable(entry) && !IsLanguages(entry)
    ensures var r := ParseRelevantScores(data, c, parse);
            r[WritingKey] == Str(NA) && r[LanguagesKey] == Str(NA) && r[PredictedKey] == Num(c.base)
  {
    var provas := Get(data.fields, "provaObjetiva", Arr([])).items;
    assert forall j :: 0 <= j < |provas| ==> provas[j] in provas;
    assert ScanLanguages(provas).Exhausted?;
  }

  /** When the objective tests cannot be iterated, or the scan over them
      raises, the essay score already read is kept and the other two stay
      `'N/A'`. */
  lemma FailedScanKeepsWritingScore(data: Value, c: Coefficients, parse: string -> Option<real>)
    requires WritingScore(data).Some?
    requires || Iterated(Get(data.fields, "provaObjetiva", Arr([]))).None?
             || ScanLanguages(Iterated(Get(data.fields, "provaObjetiva", Arr([]))).value).ScanRaised?
    ensures var r := ParseRelevantScores(data, c, parse);
            && r[WritingKey] == WritingScore(data).value
            && r[LanguagesKey] == Str(NA) && r[PredictedKey] == Str(NA)
  {
  }

  /** A parser that, like `float()`, refuses a decimal comma. */
  ghost predicate RefusesCommas(parse: string -> Option<real>)
  {
    forall s :: ',' in s ==> parse(s).None?
  }

  /** The decimal comma is replaced in the languages score only: an essay
      score with a comma reaches `float()` as it is, which raises, so the
      essay score is kept as read and no prediction is made. */
  lemma WritingScoreKeepsItsComma(data: Value, c: Coefficients, parse: string -> Option<real>)
    requires RefusesCommas(parse)
    requires WritingScore(data).Some? && WritingScore(data).value.Str?
    requires ',' in WritingScore(data).value.s
    ensures var r := ParseRelevantScores(data, c, parse);
            r[WritingKey] == WritingScore(data).value && r[PredictedKey] == Str(NA)
  {
    var w := WritingScore(data).value;
    assert w != Str(NA) by {
      assert ',' !in NA;
    }
    assert WritingOperand(w, parse).None?;
  }

  /** A comma in the languages score is read as a decimal point: the
      prediction uses the value of the score with its comma replaced. */
  lemma LanguagesCommaIsDecimalPoint(data: Value, provas: seq<Value>, i: nat, languages: string,
                                     x: real, w: real, c: Coefficients, parse: string -> Option<real>)
    requires WritingScore(data).Some? && WritingOperand(WritingScore(data).value, parse) == Some(w)
    requires Get(data.fields, "provaObjetiva", Arr([])) == Arr(provas)
    requires i < |provas| && IsLanguages(provas[i])
    requires forall j :: 0 <= j < i ==> Testable(provas[j]) && !IsLanguages(provas[j])
    requires Get(provas[i].fields, "nota", Str(NA)) == Str(languages) && languages != NA
    requires parse(ReplaceChar(languages, ',', '.')) == Some(x)
    ensures ParseRelevantScores(data, c, parse)[PredictedKey] == Num(Predict(c, x, w))
  {
    ScanReachesEntry(provas, i);
    assert ScanLanguages(provas) == Found(i, Str(languages));
    assert LanguagesOperand(Str(languages), parse) == Some(x);
    var essay := WritingScore(data).value;
    var scanned := Defaults[WritingKey := essay][LanguagesKey := Str(languages)];
    assert scanned[LanguagesKey] == Str(languages) && scanned[WritingKey] == essay;
    var p := Prediction(Str(languages), essay, c, parse);
    assert p.Some?;
    assert p.value == Predict(c, x, w);
    assert ParseRelevantScores(data, c, parse) == WithPrediction(scanned, c, parse);
  }
}

=== FILE: names.dfy ===
/**
 The identity cross-check `verify_names_match` of `app.py`: both names are
 reduced to the ASCII part of their NFKD decomposition, lower-cased, and
 stripped of every whitespace character before they are compared.

 The Unicode decomposition table is a parameter: `decompose(c)` is the NFKD
 decomposition of the single character `c`. `.encode('ASCII', 'ignore')`
 keeps only ASCII characters, and NFKD's canonical reordering only moves
 combining marks, none of which is ASCII, so the ASCII residue of a whole
 name is the concatenation of the residues of its characters.
 */
module Names {
  import opened Values

  type Decomposition = char -> string

  predicate IsAscii(c: char)
  {
    c < '\U{80}'
  }

  /** NFKD leaves every ASCII character as it is. */
  ghost predicate KeepsAscii(decompose: Decomposition)
  {
    forall c :: IsAscii(c) ==> decompose(c) == [c]
  }

  /** `.encode('ASCII', 'ignore').decode()` */
  function AsciiOnly(s: string): (r: string)
    ensures forall k :: 0 <= k < |r| ==> IsAscii(r[k])
    ensures (forall k :: 0 <= k < |s| ==> IsAscii(s[k])) ==> r == s
    ensures (forall k :: 0 <= k < |s| ==> !IsAscii(s[k])) ==> r == []
  {
    if s == [] then [] else (if IsAscii(s[0]) then [s[0]] else []) + AsciiOnly(s[1..])
  }

  /** The ASCII residue of the NFKD form of `name`. */
  function Residue(name: string, decompose: Decomposition): (r: string)
    ensures forall k :: 0 <= k < |r| ==> IsAscii(r[k])
  {
    if name == [] then [] else AsciiOnly(decompose(name[0])) + Residue(name[1..], decompose)
  }

  function LowerChar(c: char): char
  {
    if 'A' <= c <= 'Z' then (c as int + 32) as char else c
  }

  function UpperChar(c: char): char
  {
    if 'a' <= c <= 'z' then (c as int - 32) as char else c
  }

  /** `str.lower()` on ASCII text. */
  function Lower(s: string): (r: string)
    ensures |r| == |s| && forall k :: 0 <= k < |s| ==> r[k] == LowerChar(s[k])
  {
    if s == [] then [] else [LowerChar(s[0])] + Lower(s[1..])
  }

  /** `str.upper()` on the ASCII letters of `s`. */
  function Upper(s: string): (r: string)
    ensures |r| == |s| && forall k :: 0 <= k < |s| ==> r[k] == UpperChar(s[k])
  {
    if s == [] then [] else [UpperChar(s[0])] + Upper(s[1..])
  }

  /** `''.join(s.split())`: `s` without its whitespace. */
  function DropSpaces(s: string): (r: string)
    ensures forall k :: 0 <= k < |r| ==> !IsSpace(r[k])
    ensures |r| <= |s|
  {
    if s == [] then [] else (if IsSpace(s[0]) then [] else [s[0]]) + DropSpaces(s[1..])
  }

  lemma {:induction false} DropSpacesKeepsCharacters(s: string)
    ensures forall k :: 0 <= k < |DropSpaces(s)| ==> DropSpaces(s)[k] in s
  {
    if s != [] {
      DropSpacesKeepsCharacters(s[1..]);
    }
  }

  predicate IsAsciiUpper(c: char)
  {
    'A' <= c <= 'Z'
  }

  /** `normalize_name` */
  function Normalized(name: string, decompose: Decomposition): string
  {
    DropSpaces(Lower(Residue(name, decompose)))
  }

  /** Only lower-case ASCII without whitespace is left of a normalised name. */
  lemma NormalizedIsLowerAscii(name: string, decompose: Decomposition)
    ensures var r := Normalized(name, decompose);
            forall k :: 0 <= k < |r| ==> IsAscii(r[k]) && !IsAsciiUpper(r[k]) && !IsSpace(r[k])
  {
    DropSpacesKeepsCharacters(Lower(Residue(name, decompose)));
  }

  /** What one character contributes to a normalised name. */
  function CharContribution(c: char, decompose: Decomposition): string
  {
    DropSpaces(Lower(AsciiOnly(decompose(c))))
  }

  /** A reference for the normalised name, built one character at a time. */
  function Contributions(name: string, decompose: Decomposition): string
  {
    if name == [] then [] else CharContribution(name[0], decompose) + Contributions(name[1..], decompose)
  }

  /** `verify_names_match` */
  predicate NamesMatch(a: string, b: string, decompose: Decomposition)
  {
    Normalized(a, decompose) == Normalized(b, decompose)
  }

  /** Two names match exactly when their characters, one at a time,
      contribute the same text. */
  lemma NamesMatchCharacterwise(a: string, b: string, decompose: Decomposition)
    ensures NamesMatch(a, b, decompose) <==> Contributions(a, decompose) == Contributions(b, decompose)
  {
    NormalizedIsContributions(a, decompose);
    NormalizedIsContributions(b, decompose);
  }

  lemma {:induction false} ResidueOfConcat(s: string, t: string, decompose: Decomposition)
    ensures Residue(s + t, decompose) == Residue(s, decompose) + Residue(t, decompose)
  {
    if s != [] {
      assert (s + t)[1..] == s[1..] + t;
      ResidueOfConcat(s[1..], t, decompose);
    } else {
      assert s + t == t;
    }
  }

  lemma {:induction false} LowerOfConcat(s: string, t: string)
    ensures Lower(s + t) == Lower(s) + Lower(t)
  {
  }

  lemma {:induction false} DropSpacesOfConcat(s: string, t: string)
    ensures DropSpaces(s + t) == DropSpaces(s) + DropSpaces(t)
  {
    if s != [] {
      assert (s + t)[1..] == s[1..] + t;
      DropSpacesOfConcat(s[1..], t);
    } else {
      assert s + t == t;
    }
  }

  lemma {:induction false} ResidueOfAscii(s: string, decompose: Decomposition)
    requires KeepsAscii(decompose)
    requires forall k :: 0 <= k < |s| ==> IsAscii(s[k])
    ensures Residue(s, decompose) == s
  {
    if s != [] {
      ResidueOfAscii(s[1..], decompose);
    }
  }

  lemma {:induction false} DropSpacesOfSpaces(s: string)
    requires forall k :: 0 <= k < |s| ==> IsSpace(s[k])
    ensures DropSpaces(s) == []
  {
    if s != [] {
      DropSpacesOfSpaces(s[1..]);
    }
  }

  /** Normalisation distributes over concatenation: it works one character
      at a time. */
  lemma NormalizedOfConcat(s: string, t: string, decompose: Decomposition)
    ensures Normalized(s + t, decompose) == Normalized(s, decompose) + Normalized(t, decompose)
  {
    var rs, rt := Residue(s, decompose), Residue(t, decompose);
    ResidueOfConcat(s, t, decompose);
    LowerOfConcat(rs, rt);
    DropSpacesOfConcat(Lower(rs), Lower(rt));
  }

  lemma NormalizedOfChar(c: char, decompose: Decomposition)
    ensures Normalized([c], decompose) == DropSpaces(Lower(AsciiOnly(decompose(c))))
  {
    assert Residue([c], decompose) == AsciiOnly(decompose(c)) + Residue([], decompose);
    assert AsciiOnly(decompose(c)) + [] == AsciiOnly(decompose(c));
  }

  lemma {:induction false} NormalizedIsContributions(name: string, decompose: Decomposition)
    ensures Normalized(name, decompose) == Contributions(name, decompose)
  {
    if name == [] {
      assert Normalized(name, decompose) == [];
    } else {
      assert name == [name[0]] + name[1..];
      NormalizedOfConcat([name[0]], name[1..], decompose);
      NormalizedOfChar(name[0], decompose);
      NormalizedIsContributions(name[1..], decompose);
    }
  }

  lemma {:induction false} DropSpacesOfWord(s: string)
    requires forall k :: 0 <= k < |s| ==> !IsSpace(s[k])
    ensures DropSpaces(s) == s
  {
    if s != [] {
      DropSpacesOfWord(s[1..]);
    }
  }

  /** Normalising is idempotent: a normalised name normalises to itself,
      and so matches the name it came from. */
  lemma NormalizedIsIdempotent(name: string, decompose: Decomposition)
    requires KeepsAscii(decompose)
    ensures Normalized(Normalized(name, decompose), decompose) == Normalized(name, decompose)
    ensures NamesMatch(Normalized(name, decompose), name, decompose)
  {
    var r := Normalized(name, decompose);
    NormalizedIsLowerAscii(name, decompose);
    ResidueOfAscii(r, decompose);
    assert Lower(r) == r by {
      forall k | 0 <= k < |r|
        ensures Lower(r)[k] == r[k]
      {
        assert !IsAsciiUpper(r[k]);
      }
    }
    DropSpacesOfWord(r);
  }

  /** The comparison is an equivalence: reflexive, symmetric and transitive. */
  lemma NamesMatchIsEquivalence(a: string, b: string, c: string, decompose: Decomposition)
    ensures NamesMatch(a, a, decompose)
    ensures NamesMatch(a, b, decompose) == NamesMatch(b, a, decompose)
    ensures NamesMatch(a, b, decompose) && NamesMatch(b, c, decompose) ==> NamesMatch(a, c, decompose)
  {
  }

  /** The result depends on each name only through its ASCII residue:
      dropping a character that has no ASCII part changes nothing. */
  lemma DropsCharactersWithoutAsciiPart(p: string, c: char, q: string, b: string, decompose: Decomposition)
    requires forall k :: 0 <= k < |decompose(c)| ==> !IsAscii(decompose(c)[k])
    ensures NamesMatch(p + [c] + q, b, decompose) == NamesMatch(p + q, b, decompose)
  {
    NormalizedOfConcat(p + [c], q, decompose);
    NormalizedOfConcat(p, [c], decompose);
    NormalizedOfConcat(p, q, decompose);
    NormalizedOfChar(c, decompose);
    assert Normalized([c], decompose) == [];
    assert Normalized(p, decompose) + [] == Normalized(p, decompose);
  }

  /** A run of ASCII whitespace normalises to nothing. */
  lemma {:induction false} NormalizedOfSpaces(w: string, decompose: Decomposition)
    requires KeepsAscii(decompose)
    requires forall k :: 0 <= k < |w| ==> IsSpace(w[k]) && IsAscii(w[k])
    ensures Normalized(w, decompose) == []
  {
    if w != [] {
      assert w == [w[0]] + w[1..];
      NormalizedOfConcat([w[0]], w[1..], decompose);
      NormalizedOfChar(w[0], decompose);
      assert AsciiOnly(decompose(w[0])) == [w[0]];
      NormalizedOfSpaces(w[1..], decompose);
    }
  }

  lemma NormalizedAroundSpaces(p: string, w: string, q: string, decompose: Decomposition)
    requires KeepsAscii(decompose)
    requires forall k :: 0 <= k < |w| ==> IsSpace(w[k]) && IsAscii(w[k])
    ensures Normalized(p + w + q, decompose) == Normalized(p, decompose) + Normalized(q, decompose)
  {
    NormalizedOfConcat(p + w, q, decompose);
    NormalizedOfConcat(p, w, decompose);
    NormalizedOfSpaces(w, decompose);
  }

  /** Whitespace, in any amount and anywhere, is ignored. */
  lemma IgnoresWhitespace(p: string, w: string, q: string, b: string, decompose: Decomposition)
    requires KeepsAscii(decompose)
    requires forall k :: 0 <= k < |w| ==> IsSpace(w[k]) && IsAscii(w[k])
    ensures NamesMatch(p + w + q, b, decompose) == NamesMatch(p + q, b, decompose)
  {
    NormalizedAroundSpaces(p, w, q, decompose);
    NormalizedOfConcat(p, q, decompose);
  }

  lemma UpperCharNormalizesAlike(c: char, decompose: Decomposition)
    requires KeepsAscii(decompose)
    ensures Normalized([UpperChar(c)], decompose) == Normalized([c], decompose)
  {
    NormalizedOfChar(c, decompose);
    NormalizedOfChar(UpperChar(c), decompose);
    if IsAscii(c) {
      assert AsciiOnly(decompose(c)) == [c];
      assert AsciiOnly(decompose(UpperChar(c))) == [UpperChar(c)];
      assert LowerChar(UpperChar(c)) == LowerChar(c);
      assert Lower([UpperChar(c)]) == Lower([c]);
    } else {
      assert UpperChar(c) == c;
    }
  }

  /** Letter case of ASCII letters is ignored. */
  lemma {:induction false} IgnoresAsciiCase(a: string, b: string, decompose: Decomposition)
    requires KeepsAscii(decompose)
    ensures NamesMatch(Upper(a), b, decompose) == NamesMatch(a, b, decompose)
  {
    if a != [] {
      IgnoresAsciiCase(a[1..], b, decompose);
      assert a == [a[0]] + a[1..];
      assert Upper(a) == [UpperChar(a[0])] + Upper(a[1..]);
      NormalizedOfConcat([a[0]], a[1..], decompose);
      NormalizedOfConcat([UpperChar(a[0])], Upper(a[1..]), decompose);
      UpperCharNormalizesAlike(a[0], decompose);
      assert Normalized(Upper(a[1..]), decompose) == Normalized(a[1..], decompose) by {
        assert NamesMatch(Upper(a[1..]), a[1..], decompose) by {
          IgnoresAsciiCase(a[1..], a[1..], decompose);
        }
      }
    }
  }

  /** Accents are ignored: a character whose decomposition is an ASCII base
      followed by non-ASCII combining marks counts as its base. */
  lemma IgnoresCombiningMarks(p: string, c: char, base: char, q: string, b: string, decompose: Decomposition)
    requires KeepsAscii(decompose) && IsAscii(base)
    requires |decompose(c)| >= 1 && decompose(c)[0] == base
    requires forall k :: 1 <= k < |decompose(c)| ==> !IsAscii(decompose(c)[k])
    ensures NamesMatch(p + [c] + q, b, decompose) == NamesMatch(p + [base] + q, b, decompose)
  {
    var marks := decompose(c)[1..];
    assert decompose(c) == [base] + marks;
    assert AsciiOnly(marks) == [];
    assert AsciiOnly(decompose(c)) == [base];
    assert AsciiOnly(decompose(base)) == [base];
    NormalizedOfChar(c, decompose);
    NormalizedOfChar(base, decompose);
    NormalizedOfConcat(p + [c], q, decompose);
    NormalizedOfConcat(p, [c], decompose);
    NormalizedOfConcat(p + [base], q, decompose);
    NormalizedOfConcat(p, [base], decompose);
  }

  /** Two names that agree up to ASCII letter case match. */
  lemma SameUpperMatch(a: string, b: string, decompose: Decomposition)
    requires KeepsAscii(decompose)
    requires Upper(a) == Upper(b)
    ensures NamesMatch(a, b, decompose)
  {
    IgnoresAsciiCase(a, a, decompose);
    IgnoresAsciiCase(b, b, decompose);
  }

  /** Two-word names match when their words match, whatever separates them. */
  lemma WordsMatch(a1: string, w1: string, b1: string, a2: string, w2: string, b2: string, decompose: Decomposition)
    requires KeepsAscii(decompose)
    requires forall k :: 0 <= k < |w1| ==> IsSpace(w1[k]) && IsAscii(w1[k])
    requires forall k :: 0 <= k < |w2| ==> IsSpace(w2[k]) && IsAscii(w2[k])
    requires NamesMatch(a1, a2, decompose) && NamesMatch(b1, b2, decompose)
    ensures NamesMatch(a1 + w1 + b1, a2 + w2 + b2, decompose)
  {
    NormalizedAroundSpaces(a1, w1, b1, decompose);
    NormalizedAroundSpaces(a2, w2, b2, decompose);
  }

  /** Two-word names match when their words agree up to ASCII letter case,
      whatever whitespace separates them. */
  lemma WordsMatchUpToCase(a1: string, w1: string, b1: string, a2: string, w2: string, b2: string, decompose: Decomposition)
    requires KeepsAscii(decompose)
    requires forall k :: 0 <= k < |w1| ==> IsSpace(w1[k]) && IsAscii(w1[k])
    requires forall k :: 0 <= k < |w2| ==> IsSpace(w2[k]) && IsAscii(w2[k])
    requires Upper(a1) == Upper(a2) && Upper(b1) == Upper(b2)
    ensures NamesMatch(a1 + w1 + b1, a2 + w2 + b2, decompose)
  {
    SameUpperMatch(a1, a2, decompose);
    SameUpperMatch(b1, b2, decompose);
    WordsMatch(a1, w1, b1, a2, w2, b2, decompose);
  }

  /** "Jose Silva" matches "JOSE   silva": the words agree up to case and
      the runs of spaces between them differ. */
  lemma ExampleSpacingAndCase(first: string, space: string, last: string,
                              first': string, space': string, last': string, decompose: Decomposition)
    requires KeepsAscii(decompose)
    requires first == "Jose" && space == " " && last == "Silva"
    requires first' == "JOSE" && space' == "   " && last' == "silva"
    ensures NamesMatch(first + space + last, first' + space' + last', decompose)
  {
    assert Upper(first) == Upper(first');
    assert Upper(last) == Upper(last');
    WordsMatchUpToCase(first, space, last, first', space', last', decompose);
  }

  /** A worked example: "José Silva" matches "JOSE   silva" once
      `é` decomposes into `e` and a combining acute accent. */
  lemma AccentCaseAndSpacingExample(stem: string, accented: char, space: string, last: string,
                                    first': string, space': string, last': string, decompose: Decomposition)
    requires KeepsAscii(decompose)
    requires decompose('é') == "e\U{301}"
    requires stem == "Jos" && accented == 'é' && space == " " && last == "Silva"
    requires first' == "JOSE" && space' == "   " && last' == "silva"
    ensures NamesMatch(stem + [accented] + space + last, first' + space' + last', decompose)
  {
    var other := first' + space' + last';
    IgnoresCombiningMarks(stem, accented, 'e', space + last, other, decompose);
    assert stem + [accented] + space + last == stem + [accented] + (space + last);
    assert stem + ['e'] + space + last == stem + ['e'] + (space + last);
    ExampleSpacingAndCase(stem + ['e'], space, last, first', space', last', decompose);
  }
}

=== FILE: receipt.dfy ===
/**
 The rows of the enrollment receipt (`generate_pdf`): a status line followed
 by eleven labelled values read from the final enrollment data. Only the
 list of rows is modelled; the drawing is not.
 */
module Receipt {
  import opened Values
  import Crud
  import Enem

  datatype Row = Row(caption: string, value: Value)

  const ScoresKey := "notas_relevantes"
  const UpdateFlagKey := "is_update"
  const StatusLabel := "Status:"
  const UpdatedStatus := "Inscrição Atualizada"
  const CreatedStatus := "Inscrição Realizada"

  /** Where a row's value comes from: a top-level field of the data, or a
      field of its `notas_relevantes` sub-document. */
  datatype Source = Field(key: string) | Score(key: string)

  /** The rows after the status line, in drawing order. */
  const Layout: seq<(string, Source)> := [
    ("Nome Completo:", Field("Nome")),
    ("Matrícula:", Field("Matricula")),
    ("Curso:", Field("Curso")),
    ("Semestre:", Field(Crud.SemesterKey)),
    ("Turma Escolhida:", Field(Crud.SectionKey)),
    ("Opção Escolhida:", Field(Crud.ChoiceKey)),
    ("Nota de Redação:", Score(Enem.WritingKey)),
    ("Nota de Linguagens:", Score(Enem.LanguagesKey)),
    ("Nota Predita:", Score(Enem.PredictedKey)),
    ("Última Atualização:", Field(Crud.UpdatedKey)),
    ("Token do ENEM:", Field(Crud.TokenKey))
  ]

  /** Python's `str()`: a string is itself; `show` renders anything else. */
  function PyStr(v: Value, show: Value -> string): (s: string)
    ensures v.Str? ==> s == v.s
  {
    if v.Str? then v.s else show(v)
  }

  /** `data.get('notas_relevantes', {})` when it is a dict; `None` when it is
      something else, whose `.get` raises `AttributeError`. */
  function ScoresOf(data: Doc): (r: Option<Doc>)
    ensures ScoresKey !in data ==> r == Some(map[])
    ensures r.None? <==> ScoresKey in data && !data[ScoresKey].Obj?
  {
    if ScoresKey !in data then Some(map[])
    else if data[ScoresKey].Obj? then Some(data[ScoresKey].fields)
    else None
  }

  function Cell(data: Doc, scores: Doc, source: Source, show: Value -> string): Value
  {
    match source
    case Field(key) => Get(data, key, Str(NA))
    case Score(key) => Str(PyStr(Get(scores, key, Str(NA)), show))
  }

  function Cells(data: Doc, scores: Doc, layout: seq<(string, Source)>, show: Value -> string): (r: seq<Row>)
    ensures |r| == |layout|
    ensures forall k :: 0 <= k < |r| ==> r[k] == Row(layout[k].0, Cell(data, scores, layout[k].1, show))
  {
    if layout == [] then []
    else [Row(layout[0].0, Cell(data, scores, layout[0].1, show))] + Cells(data, scores, layout[1..], show)
  }

  /** The `info` list of `generate_pdf`, or `None` when building it raises. */
  function InfoRows(data: Doc, show: Value -> string): (r: Option<seq<Row>>)
    ensures r.None? <==> ScoresKey in data && !data[ScoresKey].Obj?
    ensures r.Some? ==> |r.value| == 12
    ensures r.Some? ==>
              (seq(12, k requires 0 <= k < 12 => r.value[k].caption)
               == [ "Status:", "Nome Completo:", "Matrícula:", "Curso:", "Semestre:",
                    "Turma Escolhida:", "Opção Escolhida:", "Nota de Redação:",
                    "Nota de Linguagens:", "Nota Predita:", "Última Atualização:",
                    "Token do ENEM:" ])
    ensures r.Some? && Truthy(Get(data, UpdateFlagKey, Null)) ==> r.value[0].value == Str(UpdatedStatus)
    ensures r.Some? && !Truthy(Get(data, UpdateFlagKey, Null)) ==> r.value[0].value == Str(CreatedStatus)
    // top-level fields: the stored value, or "N/A" when absent
    ensures r.Some? ==> forall k :: 1 <= k < 12 && Layout[k - 1].1.Field? ==>
              var key := Layout[k - 1].1.key;
              && (key !in data ==> r.value[k].value == Str(NA))
              && (key in data ==> r.value[k].value == data[key])
    // score fields: always strings, "N/A" when the scores or the field are absent
    ensures r.Some? ==> forall k :: 1 <= k < 12 && Layout[k - 1].1.Score? ==>
              var key := Layout[k - 1].1.key;
              && r.value[k].value.Str?
              && (ScoresKey !in data ==> r.value[k].value == Str(NA))
              && (ScoresKey in data && key !in data[ScoresKey].fields ==> r.value[k].value == Str(NA))
              && (ScoresKey in data && key in data[ScoresKey].fields && data[ScoresKey].fields[key].Str?
                  ==> r.value[k].value == data[ScoresKey].fields[key])
  {
    match ScoresOf(data)
    case None => None
    case Some(scores) =>
      var status := if Truthy(Get(data, UpdateFlagKey, Null)) then UpdatedStatus else CreatedStatus;
      Some([Row(StatusLabel, Str(status))] + Cells(data, scores, Layout, show))
  }

  /** The receipt of empty data: a new enrollment with every value "N/A". */
  lemma EmptyDataReceipt(show: Value -> string)
    ensures InfoRows(map[], show).Some?
    ensures InfoRows(map[], show).value[0] == Row(StatusLabel, Str(CreatedStatus))
    ensures forall k :: 1 <= k < 12 ==> InfoRows(map[], show).value[k].value == Str(NA)
  {
    var r := InfoRows(map[], show).value;
    forall k | 1 <= k < 12
      ensures r[k].value == Str(NA)
    {
      assert Layout[k - 1].1.Field? || Layout[k - 1].1.Score?;
    }
  }

  /** The receipt of data recording a choice shows the chosen section and
      option in their rows, after the status line. */
  lemma ChoiceRows(data: Doc, show: Value -> string)
    requires ScoresKey in data && data[ScoresKey].Obj?
    requires Crud.SectionKey in data && Crud.ChoiceKey in data
    ensures InfoRows(data, show).Some?
    ensures InfoRows(data, show).value[0].value
            == Str(if Truthy(Get(data, UpdateFlagKey, Null)) then UpdatedStatus else CreatedStatus)
    ensures InfoRows(data, show).value[5] == Row("Turma Escolhida:", data[Crud.SectionKey])
    ensures InfoRows(data, show).value[6] == Row("Opção Escolhida:", data[Crud.ChoiceKey])
  {
    var rows := Cells(data, data[ScoresKey].fields, Layout, show);
    assert InfoRows(data, show).value[5] == rows[4];
    assert InfoRows(data, show).value[6] == rows[5];
  }
}

=== FILE: values.dfy ===
/**
 The values the enrollment code handles: MongoDB documents and the decoded
 JSON of the score service, both seen through Python's `dict`/`list`/`str`
 operations. A document is a map from field name to value.
 */
module Values {

  datatype Option<+T> = None | Some(value: T)

  datatype Result<+T, +E> = Success(value: T) | Failure(error: E)

  /** A Python/BSON value. `Date` is a datetime in microseconds of wall-clock
      time; `offset` is its UTC offset in microseconds, `None` when naive. */
  datatype Value =
    | Null
    | Bool(b: bool)
    | Num(n: real)
    | Str(s: string)
    | Date(wall: int, offset: Option<int>)
    | Arr(items: seq<Value>)
    | Obj(fields: map<string, Value>)

  type Doc = map<string, Value>

  /** The placeholder the code uses for every absent value. */
  const NA := "N/A"

  /** Python truthiness (`if v:`). */
  predicate Truthy(v: Value)
  {
    match v
    case Null => false
    case Bool(b) => b
    case Num(n) => n != 0.0
    case Str(s) => s != ""
    case Date(_, _) => true
    case Arr(xs) => xs != []
    case Obj(m) => m != map[]
  }

  /** `d.get(key, default)` */
  function Get(d: Doc, key: string, default: Value): Value
  {
    if key in d then d[key] else default
  }

  /** Python's numeric view of a value in `<` and arithmetic: numbers and bools. */
  function AsNumber(v: Value): Option<real>
  {
    match v
    case Num(n) => Some(n)
    case Bool(b) => Some(if b then 1.0 else 0.0)
    case _ => None
  }

  /** `str.isspace` for one character: the characters Python's `split()` and
      `strip()` treat as whitespace. */
  predicate IsSpace(c: char)
  {
    || c == ' '
    || ('\t' <= c <= '\r')
    || ('\U{1c}' <= c <= '\U{1f}')
    || c == '\U{85}' || c == '\U{a0}' || c == '\U{1680}'
    || ('\U{2000}' <= c <= '\U{200a}')
    || c == '\U{2028}' || c == '\U{2029}' || c == '\U{202f}'
    || c == '\U{205f}' || c == '\U{3000}'
  }

  predicate IsAsciiDigit(c: char)
  {
    '0' <= c <= '9'
  }

  /** Number of leading whitespace characters. */
  function LeadingSpaces(s: string): (k: nat)
    ensures k <= |s|
    ensures forall i :: 0 <= i < k ==> IsSpace(s[i])
    ensures k < |s| ==> !IsSpace(s[k])
  {
    if s != [] && IsSpace(s[0]) then 1 + LeadingSpaces(s[1..]) else 0
  }

  /** Number of trailing whitespace characters. */
  function TrailingSpaces(s: string): (k: nat)
    ensures k <= |s|
    ensures forall i :: |s| - k <= i < |s| ==> IsSpace(s[i])
    ensures k < |s| ==> !IsSpace(s[|s| - k - 1])
  {
    if s != [] && IsSpace(s[|s| - 1]) then 1 + TrailingSpaces(s[..|s| - 1]) else 0
  }

  /** `str.strip()`: the infix left after removing surrounding whitespace. */
  function Strip(s: string): (r: string)
    ensures exists i, j :: 0 <= i <= j <= |s| && r == s[i..j]
                           && (forall k :: 0 <= k < i ==> IsSpace(s[k]))
                           && (forall k :: j <= k < |s| ==> IsSpace(s[k]))
    ensures r != [] ==> !IsSpace(r[0]) && !IsSpace(r[|r| - 1])
    ensures r == [] <==> forall k :: 0 <= k < |s| ==> IsSpace(s[k])
  {
    var i := LeadingSpaces(s);
    if i == |s| then
      assert s[i..i] == [];
      ""
    else
      var j := |s| - TrailingSpaces(s);
      assert !IsSpace(s[i]);
      s[i..j]
  }

  /** Number of non-whitespace characters `s` starts with. */
  function WordLength(s: string): (k: nat)
    ensures k <= |s|
    ensures forall i :: 0 <= i < k ==> !IsSpace(s[i])
    ensures k < |s| ==> IsSpace(s[k])
  {
    if s != [] && !IsSpace(s[0]) then 1 + WordLength(s[1..]) else 0
  }

  /** `s.split()[0]`: the first maximal run of non-whitespace; `None` when
      `s` has no such run, where Python raises `IndexError`. */
  function FirstWord(s: string): (w: Option<string>)
    ensures w.None? <==> forall k :: 0 <= k < |s| ==> IsSpace(s[k])
    ensures w.Some? ==> var i := LeadingSpaces(s);
              && w.value != []
              && i + |w.value| <= |s| && s[i..i + |w.value|] == w.value
              && (forall k :: 0 <= k < |w.value| ==> !IsSpace(w.value[k]))
              && (i + |w.value| == |s| || IsSpace(s[i + |w.value|]))
  {
    var i := LeadingSpaces(s);
    if i == |s| then None
    else
      var n := WordLength(s[i..]);
      assert !IsSpace(s[i]);
      Some(s[i..i + n])
  }

  /** The first word of a text laid out as whitespace, a word, and then
      nothing or whitespace first, is that word. */
  lemma FirstWordOfLaidOutText(pad: string, word: string, rest: string)
    requires forall k :: 0 <= k < |pad| ==> IsSpace(pad[k])
    requires word != [] && forall k :: 0 <= k < |word| ==> !IsSpace(word[k])
    requires rest == [] || IsSpace(rest[0])
    ensures FirstWord(pad + word + rest) == Some(word)
  {
    var s := pad + word + rest;
    assert forall k :: 0 <= k < |pad| ==> IsSpace(s[k]);
    assert !IsSpace(s[|pad|]);
    var i := LeadingSpaces(s);
    assert i == |pad|;
    var t := s[i..];
    assert t == word + rest;
    assert forall k :: 0 <= k < |word| ==> !IsSpace(t[k]);
    assert |word| < |t| ==> IsSpace(t[|word|]);
    var n := WordLength(t);
    assert n == |word|;
    assert s[i..i + n] == word;
  }

  /** `s.startswith(prefix)` */
  predicate StartsWith(s: string, prefix: string)
  {
    |prefix| <= |s| && s[..|prefix|] == prefix
  }

  /** `needle` occurs in `s` starting at index `i`. */
  predicate OccursAt(s: string, needle: string, i: int)
  {
    0 <= i <= |s| - |needle| && s[i..i + |needle|] == needle
  }

  /** `needle in s` for two strings. */
  predicate HasSubstring(s: string, needle: string)
  {
    exists i | 0 <= i <= |s| - |needle| :: OccursAt(s, needle, i)
  }

  /** `s.replace(a, b)` for single characters. */
  function ReplaceChar(s: string, a: char, b: char): (r: string)
    ensures |r| == |s|
    ensures forall i :: 0 <= i < |s| ==> r[i] == (if s[i] == a then b else s[i])
  {
    if s == [] then [] else [if s[0] == a then b else s[0]] + ReplaceChar(s[1..], a, b)
  }
}

=== FILE: wizard.dfy ===
/**
 The enrollment wizard of `app.py` as a state machine over an explicit
 session record. One call of a step handler is one run of the Streamlit
 script on that step's page, with the user's inputs for that run; the
 handler returns the session after the run, the enrollment collection, and
 the message the page shows.

 An exception that escapes a handler is a `Fault`: Streamlit shows it and
 keeps the session changes made before it. Exceptions caught by the code
 are modelled as the code's own handler does.
 */
module Wizard {
  import opened Values
  import Crud
  import Enem
  import Names
  import Receipt

  datatype Step = Identificacao | ValidacaoEnem | Confirmacao | Finalizado

  /** `st.session_state`. `isCalouro` and `finalData` are keys the session
      does not have until the identification and confirmation steps set them. */
  datatype Session = Session(
    step: Step,
    matricula: string,
    alunoData: Option<Doc>,
    enemData: Option<Doc>,
    existingEnrollment: Option<Doc>,
    isUpdate: bool,
    infoMessage: string,
    isCalouro: Option<bool>,
    finalData: Option<Doc>)

  /** What the page tells the user after a run. */
  datatype Notice =
    | Silent
    | AskMatricula        // no matrícula typed
    | MatriculaUnknown    // not on the roster and not a freshman's number
    | AskToken            // neither a token in the PDF nor a typed one
    | ScoresUnavailable   // the score service gave nothing usable
    | NameMismatch        // the ENEM name is not the roster name
    | SaveFailed          // the save raised inside its `try`
    | Fault               // an exception escaped

  datatype Outcome = Outcome(session: Session, store: seq<Doc>, notice: Notice)

  const FreshmanInfo := "Matrícula não encontrada. Identificamos que você é um provável calouro. Vamos confirmar seus dados com o ENEM."
  const PreviousEnrollmentInfo := "Encontramos sua inscrição anterior. Você pode revisar e alterar suas escolhas abaixo."
  const UnconfirmedCourse := "A ser confirmado"
  const NoSections := "Turmas não disponíveis"
  const AttendOption := "Cursar disciplina"
  const ExemptionOption := "Dispensa de disciplina"
  const DefaultCutoff := 6.75
  const ActiveSemesterKey := "activeSemester"
  const CutoffKey := "cutoffScore"
  const StartKey := "enrollmentStartDate"
  const EndKey := "enrollmentEndDate"

  // ---------------------------------------------------------------------
  // Session initialisation
  // ---------------------------------------------------------------------

  /** The session `initialize_session_state` creates. */
  const Fresh := Session(Identificacao, "", None, None, None, false, "", None, None)

  /** `initialize_session_state`: `None` is a session without any key. */
  function Initialize(state: Option<Session>): (s: Session)
    ensures state.Some? ==> s == state.value
    ensures state.None? ==> && s.step == Identificacao && s.matricula == ""
                            && s.alunoData.None? && s.enemData.None? && s.existingEnrollment.None?
                            && !s.isUpdate && s.infoMessage == ""
  {
    if state.Some? then state.value else Fresh
  }

  /** What the handlers need of the session before they can run without a
      missing-key error: each step's data is recorded by the step before it. */
  predicate Consistent(s: Session)
  {
    && (s.step != Identificacao ==> s.alunoData.Some? && s.isCalouro.Some?)
    && (s.step == Confirmacao || s.step == Finalizado ==> s.enemData.Some?)
    && (s.step == Finalizado ==> && s.finalData.Some?
                                 && Receipt.ScoresKey in s.finalData.value
                                 && s.finalData.value[Receipt.ScoresKey].Obj?)
  }

  // ---------------------------------------------------------------------
  // Step 1: identification
  // ---------------------------------------------------------------------

  datatype IdentifyInput = IdentifyInput(typed: string, submitted: bool)

  predicate AllDigits(s: string)
  {
    forall k :: 0 <= k < |s| ==> IsAsciiDigit(s[k])
  }

  /** `m.startswith(year) and m.isdigit()`: the number a freshman gets. */
  predicate FreshmanNumber(m: string, year: string)
  {
    StartsWith(m, year) && m != [] && AllDigits(m)
  }

  /** Some member of the roster has this matrícula. */
  ghost predicate Listed(roster: seq<Doc>, m: string)
  {
    exists j :: 0 <= j < |Crud.Unwound(roster)| && Crud.Enrolled(Crud.Unwound(roster)[j].1, m)
  }

  /** `handle_identificacao_step`; `year` is the current year as text. */
  function Identify(s: Session, store: seq<Doc>, input: IdentifyInput, roster: seq<Doc>, year: string)
    : (o: Outcome)
    ensures o.store == store
    ensures !input.submitted ==> o.session == s && o.notice == Silent
    ensures input.submitted && Strip(input.typed) == "" ==> o.session == s && o.notice == AskMatricula
    ensures input.submitted && Strip(input.typed) != "" ==> o.session.matricula == Strip(input.typed)
    // the step advances exactly for a listed student or a freshman's number
    ensures o.session.step != s.step ==>
              input.submitted && Strip(input.typed) != ""
              && (Listed(roster, Strip(input.typed)) || FreshmanNumber(Strip(input.typed), year))
    ensures input.submitted && Strip(input.typed) != ""
            && (Listed(roster, Strip(input.typed)) || FreshmanNumber(Strip(input.typed), year))
            ==> o.session.step == ValidacaoEnem
    // a listed student: the projected roster entry
    ensures var m := Strip(input.typed);
            input.submitted && m != "" && Listed(roster, m) ==>
              && o.session == s.(matricula := m, alunoData := Crud.FindStudent(roster, m),
                                 isCalouro := Some(false), step := ValidacaoEnem)
              && o.session.isCalouro == Some(false)
              && o.session.alunoData == Crud.FindStudent(roster, m)
              && "Matricula" in o.session.alunoData.value
    // an unlisted freshman's number: only the matrícula is known
    ensures var m := Strip(input.typed);
            input.submitted && m != "" && !Listed(roster, m) && FreshmanNumber(m, year) ==>
              && o.session == s.(matricula := m, alunoData := Some(map["Matricula" := Str(m)]),
                                 isCalouro := Some(true), infoMessage := FreshmanInfo, step := ValidacaoEnem)
              && o.session.isCalouro == Some(true)
              && o.session.alunoData == Some(map["Matricula" := Str(m)])
              && o.session.infoMessage == FreshmanInfo
    // anything else: only the typed matrícula is kept
    ensures var m := Strip(input.typed);
            input.submitted && m != "" && !Listed(roster, m) && !FreshmanNumber(m, year) ==>
              o.session == s.(matricula := m) && o.notice == MatriculaUnknown
    ensures Consistent(s) ==> Consistent(o.session)
  {
    if !input.submitted then Outcome(s, store, Silent)
    else
      var m := Strip(input.typed);
      if m == "" then Outcome(s, store, AskMatricula)
      else
        var s1 := s.(matricula := m);
        match Crud.FindStudent(roster, m)
        case Some(aluno) =>
          Outcome(s1.(alunoData := Some(aluno), isCalouro := Some(false), step := ValidacaoEnem), store, Silent)
        case None =>
          if FreshmanNumber(m, year) then
            Outcome(s1.(alunoData := Some(map["Matricula" := Str(m)]), isCalouro := Some(true),
                        infoMessage := FreshmanInfo, step := ValidacaoEnem), store, Silent)
          else Outcome(s1, store, MatriculaUnknown)
  }

  // ---------------------------------------------------------------------
  // Step 2: ENEM validation
  // ---------------------------------------------------------------------

  /** The page's inputs: the uploaded PDF (`None` without an upload; the
      upload's page texts, or `None` when reading it raised), the text typed
      in the manual token field, and whether the button was pressed. */
  datatype EnemInput = EnemInput(upload: Option<Option<seq<string>>>, manual: string, pressed: bool)

  /** The token the button uses: a typed token wins over one found in the PDF. */
  function TokenChoice(upload: Option<Option<seq<string>>>, manual: string): (t: Option<string>)
    ensures Strip(manual) != "" ==> t == Some(Strip(manual))
    ensures Strip(manual) == "" && upload.None? ==> t.None?
    ensures Strip(manual) == "" && upload.Some? ==> t == Enem.ExtractHashFromPdf(upload.value)
    ensures t.Some? ==> t.value != ""
  {
    if Strip(manual) != "" then Some(Strip(manual))
    else if upload.Some? then Enem.ExtractHashFromPdf(upload.value)
    else None
  }

  /** The greeting `aluno_data.get('Nome', 'Aluno(a)').split()[0]` can be
      computed: no name, or a name with a word in it. */
  predicate Greets(aluno: Doc)
  {
    "Nome" !in aluno || (aluno["Nome"].Str? && Strip(aluno["Nome"].s) != "")
  }

  const DefaultGreetingName := "Aluno(a)"

  /** The name the page greets: the first word of the student's name, or
      `Aluno(a)` without one, which is a single word. `None` where Python
      raises: a name that is not a string has no `split`, and a blank one
      has no first word. */
  function GreetingName(aluno: Doc): (g: Option<string>)
    ensures g.Some? <==> Greets(aluno)
    ensures "Nome" !in aluno ==> g == Some(DefaultGreetingName)
    ensures "Nome" in aluno && aluno["Nome"].Str? ==> g == FirstWord(aluno["Nome"].s)
    ensures g.Some? ==> g.value != [] && forall k :: 0 <= k < |g.value| ==> !IsSpace(g.value[k])
  {
    if "Nome" !in aluno then Some(DefaultGreetingName)
    else match aluno["Nome"]
      case Str(name) => FirstWord(name)
      case _ => None
  }

  /** Splitting the default greeting gives it back whole. */
  lemma DefaultGreetingIsOneWord()
    ensures FirstWord(DefaultGreetingName) == Some(DefaultGreetingName)
  {
    FirstWordOfLaidOutText([], DefaultGreetingName, []);
    assert [] + DefaultGreetingName + [] == DefaultGreetingName;
  }

  /** The student data of a freshman once the ENEM name is known. */
  function FreshmanData(aluno: Doc, enemName: Value): (d: Doc)
    ensures d.Keys == aluno.Keys + {"Nome", "Curso"}
    ensures d["Nome"] == enemName && d["Curso"] == Str(UnconfirmedCourse)
    ensures forall k :: k in aluno && k != "Nome" && k != "Curso" ==> d[k] == aluno[k]
  {
    aluno["Nome" := enemName]["Curso" := Str(UnconfirmedCourse)]
  }

  /** The score document a run obtains: the button pressed, a token chosen,
      and a non-empty dict from the score service. */
  function FetchedDoc(input: EnemInput, fetch: string -> Enem.FetchResult): Option<Doc>
  {
    if !input.pressed then None
    else match TokenChoice(input.upload, input.manual)
      case None => None
      case Some(token) =>
        match fetch(token)
        case Fetched(Obj(fields)) => if fields != map[] then Some(fields) else None
        case _ => None
  }

  /** What a run without a score document reports: nothing before the
      button is pressed, a request for a token, the service's failure, or
      a fault where Python raises (a call that raises, or a truthy body
      that is not a dict and so has no `get`). A non-empty dict is a score
      document, for which this is not consulted. */
  function WithoutDocument(input: EnemInput, fetch: string -> Enem.FetchResult): Notice
  {
    if !input.pressed then Silent
    else match TokenChoice(input.upload, input.manual)
      case None => AskToken
      case Some(token) =>
        match fetch(token)
        case Raised => Fault
        case GaveUp => ScoresUnavailable
        case Fetched(body) =>
          if !Truthy(body) then ScoresUnavailable
          else if !body.Obj? then Fault
          else Silent
  }

  /** `handle_validacao_enem_step`. `fetch(token)` is what `fetch_enem_scores`
      returns for the token, `decompose` the NFKD table. */
  function ValidateEnem(s: Session, store: seq<Doc>, input: EnemInput, config: Doc,
                        fetch: string -> Enem.FetchResult, decompose: Names.Decomposition)
    : (o: Outcome)
    ensures o.store == store
    ensures o.session.step == s.step || o.session.step == Confirmacao
    // the info message is shown once and cleared, unless a previous enrollment was just found
    ensures o.session.infoMessage == "" || o.session.infoMessage == PreviousEnrollmentInfo
    ensures o.session.matricula == s.matricula && o.session.isCalouro == s.isCalouro
            && o.session.finalData == s.finalData
    // without a score document only the message is cleared
    ensures FetchedDoc(input, fetch).None? ==> o.session == s.(infoMessage := "")
    // a name mismatch keeps the data the next press is compared against
    ensures o.notice == NameMismatch ==> o.session.alunoData == s.alunoData && o.session.enemData == s.enemData
    // with a score document, a previous enrollment under its token and the
    // active semester is held and announced, and the update flag records it
    ensures s.alunoData.Some? && Greets(s.alunoData.value) && s.isCalouro.Some? && FetchedDoc(input, fetch).Some? ==>
              var prior := Crud.FindEnrollment(store, Get(FetchedDoc(input, fetch).value, "hash", Null),
                                               Get(config, ActiveSemesterKey, Str(NA)));
              && o.session.isUpdate == (s.isUpdate || prior.Some?)
              && (prior.Some? ==> o.session.existingEnrollment == prior
                                  && o.session.infoMessage == PreviousEnrollmentInfo)
              && (prior.None? ==> o.session.existingEnrollment == s.existingEnrollment
                                  && o.session.infoMessage == "")
    // the step advances only with a score document and, for a student on
    // the roster, matching names
    ensures o.session.step == Confirmacao && s.step != Confirmacao ==>
              && FetchedDoc(input, fetch).Some?
              && o.session.enemData == FetchedDoc(input, fetch)
              && s.isCalouro.Some? && s.alunoData.Some?
              && var aluno, enem := s.alunoData.value, FetchedDoc(input, fetch).value;
                 && (!s.isCalouro.value ==>
                       && Get(aluno, "Nome", Null).Str? && Get(enem, "nome", Str("")).Str?
                       && Names.NamesMatch(Get(aluno, "Nome", Null).s, Get(enem, "nome", Str("")).s, decompose)
                       && o.session.alunoData == s.alunoData)
                 && (s.isCalouro.value ==>
                       o.session.alunoData == Some(FreshmanData(aluno, Get(enem, "nome", Str("")))))
    ensures Consistent(s) ==> Consistent(o.session)
  {
    var s1 := s.(infoMessage := "");
    if s.alunoData.None? || !Greets(s.alunoData.value) || s.isCalouro.None? then Outcome(s1, store, Fault)
    else match FetchedDoc(input, fetch)
      case None => Outcome(s1, store, WithoutDocument(input, fetch))
      case Some(enem) =>
        var prior := Crud.FindEnrollment(store, Get(enem, "hash", Null), Get(config, ActiveSemesterKey, Str(NA)));
        var s2 := if prior.Some? then s1.(isUpdate := true, existingEnrollment := prior,
                                          infoMessage := PreviousEnrollmentInfo)
                  else s1;
        var aluno := s.alunoData.value;
        var enemName := Get(enem, "nome", Str(""));
        if s.isCalouro.value then
          Outcome(s2.(alunoData := Some(FreshmanData(aluno, enemName)), enemData := Some(enem),
                      step := Confirmacao), store, Silent)
        else
          var rosterName := Get(aluno, "Nome", Null);
          if !rosterName.Str? || !enemName.Str? then Outcome(s2, store, Fault)
          else if !Names.NamesMatch(rosterName.s, enemName.s, decompose) then Outcome(s2, store, NameMismatch)
          else Outcome(s2.(enemData := Some(enem), step := Confirmacao), store, Silent)
  }

  /** The roster name and the ENEM name are both text and match. */
  predicate NamesAgree(aluno: Doc, enem: Doc, decompose: Names.Decomposition)
  {
    && Get(aluno, "Nome", Null).Str? && Get(enem, "nome", Str("")).Str?
    && Names.NamesMatch(Get(aluno, "Nome", Null).s, Get(enem, "nome", Str("")).s, decompose)
  }

  /** Nothing happens before the button is pressed, without a token, or
      when the score service gives up. */
  lemma ValidateEnemWaits(s: Session, store: seq<Doc>, input: EnemInput, config: Doc,
                        fetch: string -> Enem.FetchResult, decompose: Names.Decomposition)
    ensures var o := ValidateEnem(s, store, input, config, fetch, decompose);
            && (!input.pressed && o.notice != Fault ==> o.session == s.(infoMessage := "") && o.notice == Silent)
            && (input.pressed && TokenChoice(input.upload, input.manual).None? && o.notice != Fault
                ==> o.session == s.(infoMessage := "") && o.notice == AskToken)
            && (input.pressed && TokenChoice(input.upload, input.manual).Some?
                && fetch(TokenChoice(input.upload, input.manual).value) == Enem.GaveUp && o.notice != Fault
                ==> o.session == s.(infoMessage := "") && o.notice == ScoresUnavailable)
  {
  }

  /** The step does advance: with a score document, a freshman, or a
      student on the roster whose names match, reaches the confirmation. */
  lemma ValidateEnemAdvances(s: Session, store: seq<Doc>, input: EnemInput, config: Doc,
                        fetch: string -> Enem.FetchResult, decompose: Names.Decomposition)
    requires FetchedDoc(input, fetch).Some? && s.alunoData.Some? && Greets(s.alunoData.value) && s.isCalouro.Some?
    requires !s.isCalouro.value ==> NamesAgree(s.alunoData.value, FetchedDoc(input, fetch).value, decompose)
    ensures var o := ValidateEnem(s, store, input, config, fetch, decompose);
            && o.session.step == Confirmacao && o.notice == Silent
            && o.session.enemData == FetchedDoc(input, fetch)
  {
  }

  /** The name gate: a student on the roster whose names differ stays on
      the page and is told so, with the roster data and the held score
      document as they were. */
  lemma ValidateEnemNameGate(s: Session, store: seq<Doc>, input: EnemInput, config: Doc,
                        fetch: string -> Enem.FetchResult, decompose: Names.Decomposition)
    requires s.isCalouro == Some(false) && s.alunoData.Some? && Greets(s.alunoData.value)
    ensures var o := ValidateEnem(s, store, input, config, fetch, decompose);
            var doc := FetchedDoc(input, fetch);
            && doc.Some?
            && Get(s.alunoData.value, "Nome", Null).Str? && Get(doc.value, "nome", Str("")).Str?
            && !NamesAgree(s.alunoData.value, doc.value, decompose)
            ==> && o.session.step == s.step && o.notice == NameMismatch
                && o.session.alunoData == s.alunoData && o.session.enemData == s.enemData
  {
  }

  /** Once the score document is in, the update flag records a previous
      enrollment under its token and the active semester, and is never
      cleared; a previous enrollment found is held and announced, and
      without one the held enrollment is kept and the message cleared. */
  lemma ValidateEnemRecordsPriorEnrollment(s: Session, store: seq<Doc>, input: EnemInput, config: Doc,
                        fetch: string -> Enem.FetchResult, decompose: Names.Decomposition)
    ensures var o := ValidateEnem(s, store, input, config, fetch, decompose);
            FetchedDoc(input, fetch).Some? && o.notice != Fault ==>
              var prior := Crud.FindEnrollment(store, Get(FetchedDoc(input, fetch).value, "hash", Null),
                                               Get(config, ActiveSemesterKey, Str(NA)));
              && o.session.isUpdate == (s.isUpdate || prior.Some?)
              && (prior.Some? ==> o.session.existingEnrollment == prior
                                  && o.session.infoMessage == PreviousEnrollmentInfo)
              && (prior.None? ==> o.session.existingEnrollment == s.existingEnrollment
                                  && o.session.infoMessage == "")
  {
  }

  // ---------------------------------------------------------------------
  // Step 3: choice and confirmation
  // ---------------------------------------------------------------------

  /** The section list offered: the active sections, or a placeholder. */
  function SectionOptions(names: seq<Value>): (r: seq<Value>)
    ensures |r| >= 1
    ensures names != [] ==> r == names
    ensures names == [] ==> r == [Str(NoSections)]
  {
    if names == [] then [Str(NoSections)] else names
  }

  function EqualTo(v: Value): Value -> bool
  {
    (w: Value) => w == v
  }

  /** The preselected index: where the previous value first occurs, else 0. */
  function DefaultIndex(options: seq<Value>, previous: Value): (i: nat)
    requires |options| >= 1
    ensures i < |options|
    ensures previous in options ==> options[i] == previous && forall j :: 0 <= j < i ==> options[j] != previous
    ensures previous !in options ==> i == 0
  {
    var k := Crud.FirstIndex(options, EqualTo(previous));
    if k < |options| then k
    else
      assert forall j :: 0 <= j < |options| ==> !EqualTo(previous)(options[j]);
      0
  }

  /** What a select box returns: the option the user picked, or the
      preselected one when the user left it alone. */
  function Select(options: seq<Value>, preselected: nat, pick: Option<nat>): (v: Value)
    requires preselected < |options|
    ensures v in options
    ensures pick.Some? && pick.value < |options| ==> v == options[pick.value]
    ensures pick.None? ==> v == options[preselected]
  {
    if pick.Some? && pick.value < |options| then options[pick.value] else options[preselected]
  }

  /** Lexicographic order of code points, Python's `<` on `str`. */
  predicate StrLess(a: string, b: string)
  {
    if a == [] then b != []
    else if b == [] then false
    else if a[0] != b[0] then a[0] < b[0]
    else StrLess(a[1..], b[1..])
  }

  /** Python's `a < b` for a predicted score (a number or the text "N/A")
      and the configured cutoff; `None` where it raises `TypeError`. */
  function PyLess(a: Value, b: Value): (r: Option<bool>)
    ensures AsNumber(a).Some? && AsNumber(b).Some? ==> r == Some(AsNumber(a).value < AsNumber(b).value)
    ensures a.Str? && AsNumber(b).Some? ==> r.None?
    ensures AsNumber(a).Some? && b.Str? ==> r.None?
  {
    if AsNumber(a).Some? && AsNumber(b).Some? then Some(AsNumber(a).value < AsNumber(b).value)
    else if a.Str? && b.Str? then Some(StrLess(a.s, b.s))
    else None
  }

  /** The choice list as the code computes it: exemption is dropped below the
      cutoff, and the comparison raises for a prediction of "N/A". */
  function ChoiceOptionsAsWritten(predicted: Value, cutoff: Value): (r: Option<seq<Value>>)
    ensures r.Some? ==> |r.value| >= 1 && r.value[0] == Str(AttendOption)
    ensures r.None? <==> PyLess(predicted, cutoff).None?
  {
    match PyLess(predicted, cutoff)
    case None => None
    case Some(below) =>
      Some(if below then [Str(AttendOption)] else [Str(AttendOption), Str(ExemptionOption)])
  }

  /** An unparsed prediction reaches the comparison with the default cutoff. */
  lemma UnparsedPredictionRaises()
    ensures ChoiceOptionsAsWritten(Str(NA), Num(DefaultCutoff)).None?
  {
  }

  /** The choice list with a prediction of "N/A" read as below the cutoff:
      only attending is offered. Elsewhere it is the list as written. */
  function ChoiceOptions(predicted: Value, cutoff: Value): (r: Option<seq<Value>>)
    ensures predicted == Str(NA) ==> r == Some([Str(AttendOption)])
    ensures predicted != Str(NA) ==> r == ChoiceOptionsAsWritten(predicted, cutoff)
    ensures r.Some? ==> |r.value| >= 1 && r.value[0] == Str(AttendOption)
    ensures AsNumber(predicted).Some? && AsNumber(cutoff).Some? ==> r.Some?
    // exemption is offered exactly to a numeric prediction at or above the cutoff
    ensures AsNumber(predicted).Some? && AsNumber(cutoff).Some? ==>
              (Str(ExemptionOption) in r.value <==> AsNumber(cutoff).value <= AsNumber(predicted).value)
    ensures AsNumber(predicted).Some? && AsNumber(cutoff).Some? && AsNumber(predicted).value < AsNumber(cutoff).value
            ==> r == Some([Str(AttendOption)])
  {
    if predicted == Str(NA) then Some([Str(AttendOption)]) else ChoiceOptionsAsWritten(predicted, cutoff)
  }

  datatype ConfirmInput = ConfirmInput(sectionPick: Option<nat>, choicePick: Option<nat>, submitted: bool)

  /** The three `datetime.now()` readings of a confirmation, in call order:
      the save's update stamp, its creation stamp, and the receipt's stamp. */
  datatype Stamps = Stamps(updatedAt: string, insertedAt: string, finishedAt: string)

  /** `parse_relevant_scores(enem_info) if enem_info else {}`: no scores
      exactly without ENEM data. */
  function RelevantScores(enem: Option<Doc>, c: Enem.Coefficients, parse: string -> Option<real>): (r: Doc)
    ensures r == map[] <==> enem.None? || enem.value == map[]
  {
    if enem.Some? && enem.value != map[] then Enem.ParseRelevantScores(Obj(enem.value), c, parse) else map[]
  }

  /** The scores the form shows are well formed, and the prediction it
      compares with the cutoff is a number or `"N/A"`. */
  lemma RelevantScoresAreWellFormed(enem: Option<Doc>, c: Enem.Coefficients, parse: string -> Option<real>)
    ensures var r := RelevantScores(enem, c, parse);
            && (r != map[] ==> Enem.WellFormed(r, c, parse))
            && (Get(r, Enem.PredictedKey, Num(0.0)).Num? || Get(r, Enem.PredictedKey, Num(0.0)) == Str(NA))
  {
  }

  /** The value preselected from a previous enrollment, or the list's first. */
  function Previous(existing: Option<Doc>, key: string, options: seq<Value>): (v: Value)
    requires |options| >= 1
    ensures existing.None? ==> v == options[0]
    ensures existing.Some? && key in existing.value ==> v == existing.value[key]
    ensures existing.Some? && key !in existing.value ==> v == Null
  {
    if existing.Some? then Get(existing.value, key, Null) else options[0]
  }

  /** The enrollment the form submits. */
  function Submission(aluno: Doc, enem: Doc, scores: Doc, semester: Value, section: Value, choice: Value)
    : (d: Doc)
    ensures Crud.Complete(d)
    ensures d.Keys == aluno.Keys + {Crud.SectionKey, Crud.TokenKey, Receipt.ScoresKey, Crud.ChoiceKey, Crud.SemesterKey}
    ensures d[Crud.SectionKey] == section && d[Crud.ChoiceKey] == choice && d[Crud.SemesterKey] == semester
    ensures d[Crud.TokenKey] == Get(enem, "hash", Null) && d[Receipt.ScoresKey] == Obj(scores)
    ensures forall k :: k in aluno && k !in {Crud.SectionKey, Crud.TokenKey, Receipt.ScoresKey, Crud.ChoiceKey, Crud.SemesterKey}
                        ==> d[k] == aluno[k]
  {
    aluno + map[Crud.SectionKey := section, Crud.TokenKey := Get(enem, "hash", Null),
                Receipt.ScoresKey := Obj(scores), Crud.ChoiceKey := choice, Crud.SemesterKey := semester]
  }

  /** The section and the choice the form holds: each the user's pick or the
      preselected option. `None` when drawing the form raises. */
  function FormChoices(s: Session, input: ConfirmInput, sections: seq<Doc>, config: Doc, scores: Doc)
    : (r: Option<(Value, Value)>)
    ensures var semester := Get(config, ActiveSemesterKey, Str(NA));
            var options := ChoiceOptions(Get(scores, Enem.PredictedKey, Num(0.0)), Get(config, CutoffKey, Num(DefaultCutoff)));
            && (r.Some? <==> Crud.GetTurmas(sections, semester).Success? && options.Some?)
            && (r.Some? ==> && r.value.0 in SectionOptions(Crud.GetTurmas(sections, semester).value)
                            && r.value.1 in options.value)
            // an offered pick is what the form submits
            && (r.Some? && input.sectionPick.Some?
                && input.sectionPick.value < |SectionOptions(Crud.GetTurmas(sections, semester).value)|
                ==> r.value.0 == SectionOptions(Crud.GetTurmas(sections, semester).value)[input.sectionPick.value])
            && (r.Some? && input.choicePick.Some? && input.choicePick.value < |options.value|
                ==> r.value.1 == options.value[input.choicePick.value])
  {
    match Crud.GetTurmas(sections, Get(config, ActiveSemesterKey, Str(NA)))
    case Failure(_) => None
    case Success(names) =>
      var sectionOptions := SectionOptions(names);
      var section := Select(sectionOptions,
                            DefaultIndex(sectionOptions, Previous(s.existingEnrollment, Crud.SectionKey, sectionOptions)),
                            input.sectionPick);
      match ChoiceOptions(Get(scores, Enem.PredictedKey, Num(0.0)), Get(config, CutoffKey, Num(DefaultCutoff)))
      case None => None
      case Some(choiceOptions) =>
        var choice := Select(choiceOptions,
                             DefaultIndex(choiceOptions, Previous(s.existingEnrollment, Crud.ChoiceKey, choiceOptions)),
                             input.choicePick);
        Some((section, choice))
  }

  /** Left alone, the form shows a previous enrollment's section and choice
      whenever they are still offered, and otherwise the first option. */
  lemma PreselectsPreviousChoices(s: Session, input: ConfirmInput, sections: seq<Doc>, config: Doc, scores: Doc)
    requires input.sectionPick.None? && input.choicePick.None?
    ensures var r := FormChoices(s, input, sections, config, scores);
            var names := Crud.GetTurmas(sections, Get(config, ActiveSemesterKey, Str(NA)));
            var options := ChoiceOptions(Get(scores, Enem.PredictedKey, Num(0.0)), Get(config, CutoffKey, Num(DefaultCutoff)));
            r.Some? ==>
              && (var sectionOptions := SectionOptions(names.value);
                  var prior := Previous(s.existingEnrollment, Crud.SectionKey, sectionOptions);
                  && (prior in sectionOptions ==> r.value.0 == prior)
                  && (prior !in sectionOptions ==> r.value.0 == sectionOptions[0]))
              && (var prior := Previous(s.existingEnrollment, Crud.ChoiceKey, options.value);
                  && (prior in options.value ==> r.value.1 == prior)
                  && (prior !in options.value ==> r.value.1 == options.value[0]))
  {
  }

  /** The final data the receipt is drawn from. */
  function FinalData(data: Doc, isUpdate: bool, finishedAt: string): (d: Doc)
    ensures d.Keys == data.Keys + {Receipt.UpdateFlagKey, Crud.UpdatedKey}
    ensures d[Receipt.UpdateFlagKey] == Bool(isUpdate) && d[Crud.UpdatedKey] == Str(finishedAt)
    ensures forall k :: k in data && k != Receipt.UpdateFlagKey && k != Crud.UpdatedKey ==> d[k] == data[k]
  {
    data[Receipt.UpdateFlagKey := Bool(isUpdate)][Crud.UpdatedKey := Str(finishedAt)]
  }

  /** The save of a submitted form inside its `try`: the enrollment is
      upserted and kept, with the update flag and a stamp, as the final data. */
  function Save(s: Session, store: seq<Doc>, data: Doc, stamps: Stamps): (o: Outcome)
    ensures Crud.Complete(data) ==>
              && o.session == s.(finalData := Some(FinalData(data, s.isUpdate, stamps.finishedAt)), step := Finalizado)
              && Crud.SaveEnrollment(store, data, stamps.updatedAt, stamps.insertedAt) == Success(o.store)
              && o.notice == Silent
    // the scores reach the receipt
    ensures Crud.Complete(data) && Receipt.ScoresKey in data ==>
              && Receipt.ScoresKey in o.session.finalData.value
              && o.session.finalData.value[Receipt.ScoresKey] == data[Receipt.ScoresKey]
    ensures !Crud.Complete(data) ==> o == Outcome(s, store, SaveFailed)
  {
    match Crud.SaveEnrollment(store, data, stamps.updatedAt, stamps.insertedAt)
    case Failure(_) => Outcome(s, store, SaveFailed)
    case Success(saved) =>
      Outcome(s.(finalData := Some(FinalData(data, s.isUpdate, stamps.finishedAt)), step := Finalizado), saved, Silent)
  }

  /** `handle_confirmacao_step`. */
  function Confirm(s: Session, store: seq<Doc>, input: ConfirmInput, sections: seq<Doc>, config: Doc,
                   c: Enem.Coefficients, parse: string -> Option<real>, stamps: Stamps)
    : (o: Outcome)
    ensures o.session.infoMessage == ""
    ensures o.session.step == s.step || o.session.step == Finalizado
    // only a completed confirmation changes the store or the session's data
    ensures o.session.step != Finalizado ==> o.session == s.(infoMessage := "") && o.store == store
    ensures !input.submitted ==> o.session.step == s.step
    // a submitted form that can be drawn, with student and score data, is saved
    ensures input.submitted && s.alunoData.Some? && s.enemData.Some?
            && FormChoices(s, input, sections, config, RelevantScores(s.enemData, c, parse)).Some?
            ==> o.session.step == Finalizado && o.notice == Silent
    ensures Consistent(s) && s.step == Confirmacao ==> Consistent(o.session)
  {
    var s1 := s.(infoMessage := "");
    if s.alunoData.None? then Outcome(s1, store, Fault)
    else
      var scores := RelevantScores(s.enemData, c, parse);
      var form := FormChoices(s, input, sections, config, scores);
      if form.None? then Outcome(s1, store, Fault)
      else if !input.submitted then Outcome(s1, store, Silent)
      // `enem_info.get` on `None` raises inside the `try`
      else if s.enemData.None? then Outcome(s1, store, SaveFailed)
      else
        Save(s1, store, Submission(s.alunoData.value, s.enemData.value, scores,
                                   Get(config, ActiveSemesterKey, Str(NA)), form.value.0, form.value.1), stamps)
  }

  /** A completed confirmation saved the submitted enrollment (the student
      data, the form's choices, the token and scores) and keeps it, with the
      update flag, as the final data. */
  lemma ConfirmSavesSubmission(s: Session, store: seq<Doc>, input: ConfirmInput, sections: seq<Doc>, config: Doc,
                               c: Enem.Coefficients, parse: string -> Option<real>, stamps: Stamps)
    requires s.step != Finalizado
    ensures var o := Confirm(s, store, input, sections, config, c, parse, stamps);
            o.session.step == Finalizado ==>
            && input.submitted && s.alunoData.Some? && s.enemData.Some?
            && var scores := RelevantScores(s.enemData, c, parse);
               var form := FormChoices(s, input, sections, config, scores);
               && form.Some?
               && var data := Submission(s.alunoData.value, s.enemData.value, scores,
                                         Get(config, ActiveSemesterKey, Str(NA)), form.value.0, form.value.1);
                  && Crud.SaveEnrollment(store, data, stamps.updatedAt, stamps.insertedAt) == Success(o.store)
                  && o.session.finalData == Some(FinalData(data, s.isUpdate, stamps.finishedAt))
  {
  }

  /** After a completed confirmation the enrollment lookup finds the saved
      choices under the final data's token and semester. */
  lemma ConfirmedEnrollmentIsFound(s: Session, store: seq<Doc>, input: ConfirmInput, sections: seq<Doc>,
                                   config: Doc, c: Enem.Coefficients, parse: string -> Option<real>, stamps: Stamps)
    requires s.step == Confirmacao
    ensures var o := Confirm(s, store, input, sections, config, c, parse, stamps);
            o.session.step == Finalizado ==>
            && o.session.finalData.Some?
            && Crud.Complete(o.session.finalData.value)
            && var d := o.session.finalData.value;
               var found := Crud.FindEnrollment(o.store, d[Crud.TokenKey], d[Crud.SemesterKey]);
               && found.Some?
               && Crud.ChoiceKeys <= found.value.Keys
               && found.value[Crud.SectionKey] == d[Crud.SectionKey]
               && found.value[Crud.ChoiceKey] == d[Crud.ChoiceKey]
  {
    if Confirm(s, store, input, sections, config, c, parse, stamps).session.step == Finalizado {
      ConfirmSavesSubmission(s, store, input, sections, config, c, parse, stamps);
      var scores := RelevantScores(s.enemData, c, parse);
      var form := FormChoices(s, input, sections, config, scores);
      var data := Submission(s.alunoData.value, s.enemData.value, scores,
                             Get(config, ActiveSemesterKey, Str(NA)), form.value.0, form.value.1);
      var d := FinalData(data, s.isUpdate, stamps.finishedAt);
      assert d[Crud.TokenKey] == data[Crud.TokenKey] && d[Crud.SemesterKey] == data[Crud.SemesterKey];
      assert d[Crud.SectionKey] == data[Crud.SectionKey] && d[Crud.ChoiceKey] == data[Crud.ChoiceKey];
      Crud.SaveThenFind(store, data, stamps.updatedAt, stamps.insertedAt);
    }
  }

  /** The receipt of a completed confirmation can be drawn; it shows the
      status the update flag selects and the chosen section and option. */
  lemma ConfirmedReceipt(s: Session, store: seq<Doc>, input: ConfirmInput, sections: seq<Doc>,
                         config: Doc, c: Enem.Coefficients, parse: string -> Option<real>,
                         stamps: Stamps, show: Value -> string)
    requires s.step == Confirmacao
    ensures var o := Confirm(s, store, input, sections, config, c, parse, stamps);
            o.session.step == Finalizado ==>
            && o.session.finalData.Some?
            && Crud.Complete(o.session.finalData.value)
            && var d := o.session.finalData.value;
               var rows := Receipt.InfoRows(d, show);
               && rows.Some?
               && rows.value[0].value == Str(if s.isUpdate then Receipt.UpdatedStatus else Receipt.CreatedStatus)
               && rows.value[5].value == d[Crud.SectionKey]
               && rows.value[6].value == d[Crud.ChoiceKey]
  {
    if Confirm(s, store, input, sections, config, c, parse, stamps).session.step == Finalizado {
      ConfirmSavesSubmission(s, store, input, sections, config, c, parse, stamps);
      var scores := RelevantScores(s.enemData, c, parse);
      var form := FormChoices(s, input, sections, config, scores);
      var data := Submission(s.alunoData.value, s.enemData.value, scores,
                             Get(config, ActiveSemesterKey, Str(NA)), form.value.0, form.value.1);
      var d := FinalData(data, s.isUpdate, stamps.finishedAt);
      assert d[Receipt.UpdateFlagKey] == Bool(s.isUpdate);
      assert Receipt.ScoresKey in d && d[Receipt.ScoresKey].Obj?;
      Receipt.ChoiceRows(d, show);
    }
  }

  // ---------------------------------------------------------------------
  // Step 4: receipt and restart
  // ---------------------------------------------------------------------

  /** `handle_finalizado_step`: draws the receipt of the final data; the
      restart button empties the session, which the next run initialises. */
  function Finish(s: Session, store: seq<Doc>, restart: bool, show: Value -> string): (o: Outcome)
    ensures o.store == store
    ensures o.notice == Fault <==> s.finalData.None? || Receipt.InfoRows(s.finalData.value, show).None?
    ensures o.notice != Fault && restart ==> o.session == Fresh
    ensures !restart || o.notice == Fault ==> o.session == s
    ensures Consistent(s) && s.step == Finalizado ==> o.notice != Fault
    ensures Consistent(s) ==> Consistent(o.session)
  {
    if s.finalData.None? || Receipt.InfoRows(s.finalData.value, show).None? then Outcome(s, store, Fault)
    else if restart then Outcome(Fresh, store, Silent)
    else Outcome(s, store, Silent)
  }

  // ---------------------------------------------------------------------
  // The enrollment window and the step dispatch of `main`
  // ---------------------------------------------------------------------

  /** What `main` does before the steps: stop on a missing configuration or
      missing dates, show a status page outside the window, or go on. */
  datatype Gate = ConfigMissing | DatesMissing | NotOpenYet | Closed | Open | GateFault

  /** The UTC instant of a datetime, naive ones read as UTC; `None` for a
      value that is not a datetime, which `<` against `now` rejects. */
  function Instant(v: Value): (t: Option<int>)
    ensures t.Some? <==> v.Date?
    ensures v.Date? && v.offset.None? ==> t == Some(v.wall)
  {
    match v
    case Date(wall, offset) => Some(wall - (if offset.Some? then offset.value else 0))
    case _ => None
  }

  /** `now` is the current UTC instant. */
  function WindowGate(config: Doc, now: int): (g: Gate)
    ensures g == ConfigMissing <==> config == map[]
    // the steps are reached exactly inside the window, both ends included
    ensures g == Open <==>
              && config != map[]
              && Instant(Get(config, StartKey, Null)).Some? && Instant(Get(config, EndKey, Null)).Some?
              && Instant(Get(config, StartKey, Null)).value <= now <= Instant(Get(config, EndKey, Null)).value
    ensures g == NotOpenYet ==> Instant(Get(config, StartKey, Null)).Some?
                                && now < Instant(Get(config, StartKey, Null)).value
    ensures g == Closed ==> Instant(Get(config, EndKey, Null)).Some?
                            && Instant(Get(config, EndKey, Null)).value < now
  {
    if config == map[] then ConfigMissing
    else
      var start, end := Get(config, StartKey, Null), Get(config, EndKey, Null);
      if !Truthy(start) || !Truthy(end) then DatesMissing
      else match Instant(start)
        case None => GateFault
        case Some(opens) =>
          if now < opens then NotOpenYet
          else match Instant(end)
            case None => GateFault
            case Some(closes) => if now > closes then Closed else Open
  }

  /** The collections and the outside world a run sees. `fetch`, `decompose`,
      `parse` and `show` stand for the score service, the NFKD table,
      `float()` on text and `str()` on non-text values. */
  datatype Env = Env(
    configs: seq<Doc>,
    roster: seq<Doc>,
    sections: seq<Doc>,
    year: string,
    fetch: string -> Enem.FetchResult,
    decompose: Names.Decomposition,
    coefficients: Enem.Coefficients,
    parse: string -> Option<real>,
    show: Value -> string,
    stamps: Stamps)

  /** The user's inputs on whichever page is shown. */
  datatype Inputs = Inputs(identify: IdentifyInput, enem: EnemInput, confirm: ConfirmInput, restart: bool)

  /** The state that outlives a run: the session and the enrollment collection. */
  datatype World = World(session: Option<Session>, store: seq<Doc>)

  /** The step handler of the session's step. */
  function Dispatch(s: Session, store: seq<Doc>, config: Doc, env: Env, input: Inputs): (o: Outcome)
    ensures Consistent(s) ==> Consistent(o.session)
    ensures s.step == Identificacao ==> o.session.step == Identificacao || o.session.step == ValidacaoEnem
    ensures s.step == ValidacaoEnem ==> o.session.step == ValidacaoEnem || o.session.step == Confirmacao
    ensures s.step == Confirmacao ==> o.session.step == Confirmacao || o.session.step == Finalizado
    ensures s.step == Finalizado ==> o.session.step == Finalizado || o.session.step == Identificacao
    ensures o.store != store ==> s.step == Confirmacao && o.session.step == Finalizado
  {
    match s.step
    case Identificacao => Identify(s, store, input.identify, env.roster, env.year)
    case ValidacaoEnem => ValidateEnem(s, store, input.enem, config, env.fetch, env.decompose)
    case Confirmacao => Confirm(s, store, input.confirm, env.sections, config, env.coefficients, env.parse, env.stamps)
    case Finalizado => Finish(s, store, input.restart, env.show)
  }

  /** One run of `main` at the UTC instant `now`. */
  function Serve(w: World, env: Env, now: int, input: Inputs): (r: (World, Gate, Notice))
    ensures r.1 != Open ==> r.0 == w && r.2 == Silent
    ensures r.1 == Open <==> WindowGate(Crud.GetConfiguracoes(env.configs), now) == Open
    ensures (w.session.None? || Consistent(w.session.value)) && r.0.session.Some? ==> Consistent(r.0.session.value)
    ensures r.0.store != w.store ==> r.1 == Open && w.session.Some? && w.session.value.step == Confirmacao
  {
    var config := Crud.GetConfiguracoes(env.configs);
    var gate := WindowGate(config, now);
    if gate != Open then (w, gate, Silent)
    else
      var o := Dispatch(Initialize(w.session), w.store, config, env, input);
      (World(Some(o.session), o.store), Open, o.notice)
  }
}
